=== FILE: README.md ===
# LoopLive video draft lifecycle, in Dafny

This project models the part of the LoopLive backend that takes an upload from a draft to a
published video:

- the storage keys and URLs of the S3 helper;
- the draft and video records, with their defaults;
- the request and response schemas;
- the draft repository on MongoDB, with its `$set` merge and owner-scoped lookups;
- the draft service (create, update, finalize);
- the HTTP endpoints that wrap the service;
- the collection-name registry;
- the checks that token verification makes on an already decoded JWT payload.

The state of the system is a `Store`. It holds three things:

- the drafts collection, keyed by `draft_id`;
- the videos collection, in insertion order;
- the file references queued for background deletion.

Every draft operation (repository, service and router) is a pure function from a store and a
request to an `Outcome`: the new store plus a `Result`. The S3 key, collection-name and token
functions take no store and return a `Result` or a `Verdict`.

Inputs the code takes from the environment become parameters:

- the fresh `uuid4()` values;
- clock reads;
- the text of a UUID;
- the boto3 presigning call;
- the JWT decoder.

Modules, one per file, follow the source layout:

| file | module | source |
|---|---|---|
| wrappers.dfy | `Wrappers` | `Option`, `Result`, and `Field` (a field of a sparse update: left out, or set) |
| enums.dfy | `Enums` | app/core/enums.py |
| errors.dfy | `Errors` | the exceptions the core raises |
| models.dfy | `Models` | app/models/vedio_model.py |
| schemas.dfy | `Schemas` | app/schemas/video_schema.py |
| draft_repository.dfy | `DraftRepository` | app/repositories/video/video_create_repository.py |
| draft_service.dfy | `DraftService` | app/services/video/video_create_service.py |
| draft_router.dfy | `DraftRouter` | app/api/video/video_create_router.py |
| lifecycle.dfy | `Lifecycle` | sequences of requests through the router, finalizing with the corrected `DraftRouter.FinalizeDraftToVideo` |
| s3_keys.dfy | `S3Keys` | app/services/s3.py |
| collections.dfy | `Collections` | app/core/collections.py |
| token_checks.dfy | `TokenChecks` | app/services/user/user_auth.py |

Three behaviours of the code shape the model:

- **Finalizing without an edited file fails.** `Video.s3_url` is a required `str`. Building
  the video from a draft whose `edited_file_name` is `None` therefore raises a validation
  error before anything is written (`DraftService.FinalizeNeedsEditedFile`). An edited file
  set to the empty string is accepted, though. The finalize then publishes a video whose
  storage reference is empty (`DraftService.EmptyEditedFilePublishesEmptyUrl`).
- **Finalize-exactly-once holds only while a draft is not reopened.** It holds for request
  sequences that never send the update schema's `finalized` field and never reuse the draft's
  id (`Lifecycle.AtMostOnePublication`). The update schema accepts `finalized`, and `$set`
  writes it, so a finalized draft can be reopened and published twice
  (`Lifecycle.ReopenedDraftPublishesTwice`).
- **A null privacy or finalized makes a draft unreadable until it is set again.** Both are
  `Optional` in the update schema, and setting either to null is written to the collection.
  The update that did it, and a finalize straight after it, fail validation
  (`DraftService.NullPrivacyIsWrittenThenUnreadable`). The lookup in `update_draft` does not
  validate before writing, so a later update that sets the field again makes the draft
  readable once more (`DraftService.NullPrivacyRepairable`).

## Model

| member | source | states |
|---|---|---|
| Models.BuildVideo | app/models/vedio_model.py:18-31 | Building a video fails with a validation error on `s3_url` exactly when no storage reference is given. Otherwise the video carries that reference. |
| Schemas.CreateDefaultsMatchDraftDefaults | app/schemas/video_schema.py:52-63 | The create schema's defaults agree with the draft model's defaults: empty filter, sticker and tag lists, followers-only privacy, and no file references. |
| DraftRepository.Load | app/models/vedio_model.py:41-61 | A stored document validates into a draft exactly when its privacy and finalized fields are not null. The draft it yields dumps back to that same document. Failure is a validation error. |
| DraftRepository.LoadDump | app/repositories/video/video_create_repository.py:16-18 | A draft stored with `model_dump` reads back as the same draft. |
| DraftRepository.MapDraft | app/repositories/video/video_create_repository.py:48-51 | A missing document maps to no draft. A present document maps to the draft it validates into, or fails with its validation error. A returned draft is exactly the stored document. |
| DraftRepository.FindOne | app/repositories/video/video_create_repository.py:21-24 | A document is found exactly when a draft with that id exists and belongs to that user. |
| DraftRepository.CreateDraft | app/repositories/video/video_create_repository.py:16-18 | Inserting adds exactly the new id and leaves every other draft, the videos and the deletion queue alone. Drafts stay filed under their own ids. |
| DraftRepository.GetDraftByIdAndUser | app/repositories/video/video_create_repository.py:20-25 | Nothing is returned exactly when the id is absent or owned by someone else. The caller's stored draft is returned when it validates, and its validation error is raised when it does not. A returned draft is the stored one and is the caller's. |
| DraftRepository.Merge | app/repositories/video/video_create_repository.py:27-33 | Each of the eleven update fields that is set, null included, overwrites the stored value. Each field left out keeps its stored value. `$set` never touches the id, owner, original file, status or timestamps. |
| DraftRepository.MergeNothing | app/services/video/video_create_service.py:51-52 | An update that sets no field leaves the document unchanged. |
| DraftRepository.MergeIdempotent | app/repositories/video/video_create_repository.py:27-33 | Applying the same update twice equals applying it once. |
| DraftRepository.MergeThen | app/repositories/video/video_create_repository.py:27-33 | Two updates in a row equal one update in which the later value of each field wins. |
| DraftRepository.UpdateDraft | app/repositories/video/video_create_repository.py:27-33 | With no matching draft, nothing changes and nothing is returned. On a match, the merged document is written before it is validated, and something other than "not found" is returned. |
| DraftRepository.MarkDraftFinalized | app/repositories/video/video_create_repository.py:35-39 | Only the draft with that id changes, whoever owns it, and only its finalized flag, which becomes true. |
| DraftRepository.MarkDraftFinalizedIdempotent | app/repositories/video/video_create_repository.py:35-39 | Marking a draft finalized twice equals marking it once. |
| DraftRepository.CreateVideo | app/repositories/video/video_create_repository.py:43-44 | The video is appended to the videos collection and returned. The drafts and the deletion queue are untouched. |
| DraftService.CreateDraft | app/services/video/video_create_service.py:23-47 | Creating stores a draft that reads back as owned by the caller, in status draft, not finalized, and holding every input field. The response echoes the input with the new id, status and time. Nothing else changes. |
| DraftService.UpdateDraft | app/services/video/video_create_service.py:50-72 | With no draft for this id and owner, the result is "Draft not found or access denied" and nothing changes. Otherwise the merge is written. The call succeeds exactly when the merged document is a valid draft, and fails with its validation error otherwise. A success reports the draft as it now reads. |
| DraftService.FinalizeDraft | app/services/video/video_create_service.py:75-119 | Success requires a valid, unfinalized draft of the caller that has an edited file. On success, exactly one video is appended, the draft is marked finalized, and the response carries the video and the original file name. Any failure writes nothing. |
| DraftService.CreatedDraftIsFound | app/services/video/video_create_service.py:23-41 | A freshly created draft is found again under its id and owner, unfinalized and in status draft. |
| DraftService.EmptyCreateIsDefaultDraft | app/services/video/video_create_service.py:24-40 | An empty create body yields exactly the model's default draft. |
| DraftService.FinalizeSucceedsIff | app/services/video/video_create_service.py:76-98 | Finalize succeeds exactly when the caller owns a valid, unfinalized draft with an edited file. An invalid stored draft yields its validation error. A finalized draft is refused. |
| DraftService.FinalizedVideoFields | app/services/video/video_create_service.py:84-98 | The published video is the caller's default video with the draft's edited file, description, location, tags and privacy: zero views, not featured, published, no thumbnail. Earlier videos are kept as a prefix. |
| DraftService.FinalizeOnlyOnce | app/services/video/video_create_service.py:80-101 | After a successful finalize, the draft is marked finalized and its original file name is handed back. An immediate second finalize fails with "Draft already finalized" and writes nothing. |
| DraftService.FinalizeNeedsEditedFile | app/services/video/video_create_service.py:84-97 | A valid, unfinalized draft whose edited file is `None` fails on `s3_url` and writes nothing. |
| DraftService.EmptyEditedFilePublishesEmptyUrl | app/services/video/video_create_service.py:84-98 | A valid, unfinalized draft whose edited file is the empty string finalizes. It publishes a video, and returns a response, whose storage reference is empty. |
| DraftService.UpdateKeepsOriginalAndOwner | app/schemas/video_schema.py:66-77 | No update can change a draft's original file or its owner. |
| DraftService.UpdateTwiceIsUpdateOnce | app/services/video/video_create_service.py:50-55 | Repeating an update leaves the store as a single update leaves it. |
| DraftService.NullPrivacyIsWrittenThenUnreadable | app/schemas/video_schema.py:76-77 | Setting privacy to null is written. The update then reports a validation error, and so does a finalize straight after it, without any further write. |
| DraftService.NullPrivacyRepairable | app/repositories/video/video_create_repository.py:27-33 | After privacy was set to null, a later update that sets it again succeeds and leaves a readable draft with that privacy. |
| S3Keys.Extension | app/services/s3.py:34 | The extension is a suffix of the file name containing no dot. It is preceded by a dot unless it is the whole name. |
| S3Keys.ExtensionEdgeCases | app/services/s3.py:34 | A name without a dot is its own extension. A name ending in a dot has an empty extension. |
| S3Keys.ExtensionWithin | app/services/s3.py:34 | The extension contains no character the file name lacks. |
| S3Keys.Split | app/services/s3.py:36 | Splitting on slashes gives at least one piece, no piece contains a slash, and joining the pieces gives the path back. |
| S3Keys.Kept | app/services/s3.py:36 | The pieces `pathlib` keeps are neither empty nor `.`. A single piece is kept exactly when it is neither, and a path with no such pieces is kept whole. |
| S3Keys.KeptAppend | app/services/s3.py:36 | Filtering joined lists of pieces is filtering each list: with the single-piece case, the kept pieces are the other pieces, in order. |
| S3Keys.Root | app/services/s3.py:36 | The anchor is a run of leading slashes of the path. It is empty exactly for a relative path. It is `//` exactly when the path starts with precisely two slashes, and `/` for one slash or for three or more. |
| S3Keys.JoinPath | app/services/s3.py:36 | A relative name with anything left after normalising is appended to the normalised folder. |
| S3Keys.JoinPathAbsolute | app/services/s3.py:36 | An absolute name replaces the folder: the result does not depend on the folder. |
| S3Keys.JoinPathSinglePiece | app/services/s3.py:36 | Joining a folder with a one-piece name appends the name to the normalised folder. |
| S3Keys.CleanFolderPrefix | app/services/s3.py:36 | A relative folder without empty or `.` pieces normalises to itself. |
| S3Keys.GenerateKey | app/services/s3.py:33-36 | For a non-empty, slash-free uuid text, the key is the normalised folder, then the uuid text, then a tail that depends on the file name alone. |
| S3Keys.SplitPrefix | app/services/s3.py:36 | A slash-free prefix lands in the first piece, so the uuid text always starts the name's first piece. |
| S3Keys.JoinPathUuidName | app/services/s3.py:36 | Joining `<uuid>.<extension>` to a folder gives the normalised folder, the uuid and the tail, even when the extension has slashes. |
| S3Keys.GenerateKeyShape | app/services/s3.py:33-36 | For a clean folder, the key is literally `folder/uuid.extension`. |
| S3Keys.GenerateKeyInjective | app/services/s3.py:33-36 | Distinct slash-free uuid texts give distinct keys, whatever the folder and the file name. |
| S3Keys.LastPieceFrom | app/services/s3.py:58 | The text after the last separator found by the left-to-right, non-overlapping scan contains no separator. It starts either at the scan's start or right after a separator occurrence. |
| S3Keys.SplitLast | app/services/s3.py:58 | `split(sep)[-1]` is a separator-free suffix that follows an occurrence of the separator. With no occurrence, it is the whole string. |
| S3Keys.DeleteKey | app/services/s3.py:58 | The key `delete_file` uses is a suffix of the URL free of `base_url/` that follows an occurrence of it. With no occurrence it is the whole URL. |
| S3Keys.DeleteKeyOfObjectUrl | app/services/s3.py:53-58 | `delete_file` recovers from an uploaded file's URL the very key it was stored under, whenever the key does not itself contain `base_url/`. |
| S3Keys.UploadFile | app/services/s3.py:39-54 | The upload fails exactly when the put fails. On success, the URL is the base URL plus the generated key, and the key can be recovered for deletion. |
| S3Keys.GeneratePresignedUploadUrl | app/services/s3.py:64-80 | It succeeds exactly when presigning the generated key succeeds. It returns that key together with the URL presigned for it, with a default lifetime of 3600 seconds. A failure is a storage error. |
| S3Keys.PresignedKeyIsUploadKey | app/services/s3.py:64-80 | A presigned upload names the key `upload_file` would store the file under with the same uuid. That object's URL leads `delete_file` back to the key. |
| DraftRouter.GenerateUploadUrl | app/api/video/video_create_router.py:23-39 | It succeeds exactly when presigning the key in the caller's `videos/<user>` folder succeeds, with the 3600-second default. It returns that key and the URL presigned for it. Any failure is a 500 with the route's message. |
| DraftRouter.UploadKeyInCallerFolder | app/api/video/video_create_router.py:29-33 | Distinct fresh uuids give distinct keys for any client file name. For a file name without slashes, the key is `videos/<user>/<uuid>.<extension>`. |
| DraftRouter.UploadKeyShape | app/api/video/video_create_router.py:29-33 | For a proper user id text and a file name without slashes, the upload key is literally `videos/<user>/<uuid>.<extension>`. |
| DraftRouter.CreateVideoDraft | app/api/video/video_create_router.py:43-55 | The route leaves the store exactly as the service's create with the caller's id leaves it. It adds only the new id, files the draft under the caller, and leaves other drafts, videos and deletions alone. It always succeeds with the echoed input. |
| DraftRouter.UpdateVideoDraft | app/api/video/video_create_router.py:60-73 | The route leaves the store exactly as the service's update with the caller's id leaves it, and succeeds exactly when the service does, with the same response. On the caller's draft the merge is written. A draft the caller does not own is refused without changes. Any failure is a 500. |
| DraftRouter.FinalizeDraftToVideoAsWritten | app/api/video/video_create_router.py:75-96 | As written, every finalize answers 500, keeps whatever the service wrote, and queues no clean-up. |
| DraftRouter.FinalizeDraftToVideo | app/api/video/video_create_router.py:75-96 | Corrected: it succeeds exactly when the service does, and returns the service's video. It queues the original file for deletion exactly when the name is non-empty. A failure is a 500 that changes nothing. |
| DraftRouter.TruthyFalseValues | app/api/video/video_create_router.py:89 | The clean-up test is false exactly for `None` and the empty string, as Python's truth test on `str | None` is. |
| DraftRouter.FinalizeLogLineLosesCleanup | app/api/video/video_create_router.py:86-91 | Where the finalize succeeds, the written route publishes the same video as the corrected one but answers 500 and queues nothing. The corrected route answers with the video and queues the original file. |
| DraftRouter.FinalizeReadsOnlyDraftId | app/schemas/video_schema.py:88-96 | Requests that differ only in title, thumbnail, description, tags, location, privacy or status finalize identically. |
| DraftRouter.ForeignCallerRefused | app/repositories/video/video_create_repository.py:20-33 | A caller who does not own the draft can neither update nor finalize it, and the attempt changes nothing. |
| Lifecycle.FinalizedIsStable | app/repositories/video/video_create_repository.py:35-39 | A finalized draft stays finalized, and cannot be published, under any request that neither sets its `finalized` field nor reuses its id. |
| Lifecycle.PublishingFinalizes | app/services/video/video_create_service.py:98-101 | A request that publishes a draft leaves the draft finalized. |
| Lifecycle.NoPublicationAfterFinalize | app/services/video/video_create_service.py:80-81 | Once a draft is finalized, no sequence of non-reopening requests publishes from it. |
| Lifecycle.AtMostOnePublication | app/services/video/video_create_service.py:75-101 | Among requests that never reopen a draft, at most one publishes a video from it. |
| Lifecycle.ReopenedDraftPublishesTwice | app/schemas/video_schema.py:77 | Finalize, then an update setting `finalized` to false, then finalize again publishes two videos from one draft. |
| Lifecycle.VideosOnlyGrow | app/repositories/video/video_create_repository.py:43-44 | No request sequence removes or reorders published videos. |
| Lifecycle.DeletionsFollowPublications | app/api/video/video_create_router.py:88-91 | The deletion queue never grows by more than the number of videos published. |
| Lifecycle.RunKeepsWellKeyed | app/repositories/video/video_create_repository.py:16-39 | Every draft stays filed under its own id, whatever requests arrive. |
| Lifecycle.TagsWalkThrough | app/services/video/video_create_service.py:23-119 | Create with tags, then update the tags and trim start, then finalize. Without an edited file the finalize fails and writes nothing. With one, the video has the new tags, and the draft is finalized and keeps its trim. |
| Collections.ValueInjective | app/core/collections.py:3-12 | Distinct collections have distinct names. |
| Collections.GetAll | app/core/collections.py:14-16 | It lists the value of each of the nine members in declaration order, so every collection's name appears. |
| Collections.GetAllDistinct | app/core/collections.py:14-16 | No collection name is listed twice. |
| Collections.Lower | app/core/collections.py:20 | Lower-casing keeps the length and maps each character to its lower-case form. |
| Collections.LowerIdempotent | app/core/collections.py:20 | Lower-casing twice equals lower-casing once. |
| Collections.Select | app/core/collections.py:21-41 | A selected member is the one whose model name the text is. |
| Collections.SelectModelName | app/core/collections.py:21-39 | Each member's model name selects that member. |
| Collections.GetByModelName | app/core/collections.py:18-41 | A found name is one of the listed collections. An unknown name is refused, quoting the name as given. |
| Collections.GetByModelNameIff | app/core/collections.py:18-39 | A name maps to a collection exactly when its lower-case form is that collection's model name. |
| Collections.GetByModelNameUnknown | app/core/collections.py:40-41 | A name that is no model name, in any letter case, raises the unknown-model error. |
| Collections.GetByModelNameOfMember | app/core/collections.py:18-39 | Every member is found under its model name, spelled in any letter case. |
| Collections.GetByModelNameCaseInsensitive | app/core/collections.py:20 | A name and its lower-case form find the same collection. |
| Collections.UserCollectionNames | app/core/collections.py:22-25 | `UserAuth` and `UserProfile` find the two user collections, while `users` is unknown. |
| TokenChecks.VerifyToken | app/services/user/user_auth.py:104-126 | Checks run in this order: a decoding error, an inadmissible type and a missing expiry each reject with `None`. A non-numeric expiry raises. An expiry before now rejects with `None`. An accepted payload is returned unchanged. |
| TokenChecks.VerifyTokenAcceptsIff | app/services/user/user_auth.py:108-122 | A payload is accepted exactly when its type is access or refresh and it has a numeric expiry that is not before now. |
| TokenChecks.ExpiryBoundary | app/services/user/user_auth.py:118-119 | A token is still valid at its expiry instant and expired one second later. |
| TokenChecks.TokenClaims | app/services/user/user_auth.py:95 | The claims are exactly the subject (the user id as text) and the email. |
| TokenChecks.BareClaimsRejected | app/services/user/user_auth.py:93-111 | Claims as `generate_token` builds them carry no type, so verification would refuse them. |

## Left out

- I/O: MongoDB, S3/boto3, HTTP and logging are not modelled. Each collection is a value in the
  store, each boto3 call is either a parameter (presigning, whether a put succeeded) or absent
  (delete, download presign), and a log line appears only where evaluating it changes the
  outcome (router line 86).
- Concurrency: each request runs as one atomic step. Two interleaved finalizes that both read
  `finalized = false`, and so publish twice, are not modelled. Neither are lost updates between
  concurrent updates.
- Background tasks: deleting the original file is a queued reference (`pendingDeletes`). The
  deletion itself, and its failures, are not modelled.
- Randomness and clocks: `uuid4()` and `datetime.now` are parameters. `str(UUID)` is a parameter
  function or a slash-free text.
- Floats and datetimes are opaque types, because the core only copies them. Timezone handling,
  `fromtimestamp` range errors and float `exp` claims are not modelled. An `exp` claim is an
  integer or a bool, and any other claim raises.
- JWT signing and decoding: `jwt.decode` is an optional payload, and `create_access_token` and
  `create_refresh_token` (which add `type` and `exp`) are not part of this model. Password
  hashing and the rest of `user_auth.py` are left out.
- DraftRepository.CreateDraft: the drafts collection is a map keyed by `draft_id`, so inserting
  an id that is already present replaces the old document, whereas MongoDB would keep both.
  With fresh `uuid4()` ids this does not arise.
- DraftRepository.MapDraft: `if not doc` would also treat an empty document as missing. Stored
  drafts always carry their fields, so this is not modelled.
- DraftRepository.Merge: an update body that sets no field is treated as a no-op write. Older
  MongoDB servers reject an empty `$set`.
- DraftRepository.CreateVideo: `VideoRepository` (app/repositories/video/video_repository.py)
  defines no `create_video`, so as written the call at line 98 of the service raises
  `AttributeError` before any write. The model reads it as the evident intent, an append to the
  videos collection, and every finalize property rests on that reading.
- `updated_at` is never refreshed by `$set`, and the model keeps it unchanged, as the code does.
- Pydantic v2's rule that a field declared `Optional[X]` without a default is still required in
  a request body is not modelled. Every update field may be left out, as the service's
  `exclude_unset` dump assumes.
- Collections.Lower: only ASCII letters are lower-cased. Python's full Unicode `str.lower`
  (for example the Kelvin sign, which lowers to `k`) is not modelled.
- The string values of `PrivacySetting` and `VideoStatus` are not modelled, because the core
  only copies and compares enum members.
- UUID and BSON encoding of ids in queries is not modelled, because ids are compared only for
  equality.
- The rest of the repository (user profiles, auth routes, messaging, the read-only video
  router, configuration and exception handlers) is not part of this model.

## Findings

| source | as written | input that shows it | evidently intended | confidence | as-written member | corrected member |
|---|---|---|---|---|---|---|
| app/api/video/video_create_router.py:86 | The success log line reads `finalize_request.user_id`, but `FinalizeVideoRequestSchema` has no `user_id`. The resulting `AttributeError` is caught by the generic handler. Assuming a working `create_video` (see "Left out"), the route therefore answers 500 after the video was published and the draft was marked finalized, and the original file is never queued for deletion. | Any request whose service-level finalize succeeds, for example a caller's own unfinalized draft with an edited file and an original file name. | Log the caller's id (`current_user.user_id`), answer with the video, and queue the original file for deletion. | high, not executed | DraftRouter.FinalizeDraftToVideoAsWritten (with DraftRouter.FinalizeLogLineLosesCleanup) | DraftRouter.FinalizeDraftToVideo |

=== FILE: collections.dfy ===
/** app/core/collections.py: the collection names and the model-name lookup. */
module Collections {
  import opened Wrappers
  import opened Errors

  datatype CollectionName =
    | UserAuth | UserProfiles | Videos | Comments | Likes | Follows | Tags | Messages | Conversations
  {
    /** The collection name stored as the member's value. */
    function Value(): string {
      match this
      case UserAuth => "user_auth"
      case UserProfiles => "user_profiles"
      case Videos => "videos"
      case Comments => "comments"
      case Likes => "likes"
      case Follows => "follows"
      case Tags => "tags"
      case Messages => "messages"
      case Conversations => "conversations"
    }

    /** The lower-case model name `get_by_model_name` maps to this member. */
    function ModelName(): string {
      match this
      case UserAuth => "userauth"
      case UserProfiles => "userprofile"
      case Videos => "video"
      case Comments => "comment"
      case Likes => "like"
      case Follows => "follow"
      case Tags => "tag"
      case Messages => "message"
      case Conversations => "conversation"
    }

    /** The member's place in declaration order. */
    function Position(): nat {
      match this
      case UserAuth => 0
      case UserProfiles => 1
      case Videos => 2
      case Comments => 3
      case Likes => 4
      case Follows => 5
      case Tags => 6
      case Messages => 7
      case Conversations => 8
    }
  }

  /** The members in declaration order. */
  const Members: seq<CollectionName> :=
    [UserAuth, UserProfiles, Videos, Comments, Likes, Follows, Tags, Messages, Conversations]

  /** Distinct members have distinct values: the length and first letter of a value already tell them apart. */
  lemma ValueInjective(c: CollectionName, d: CollectionName)
    requires c.Value() == d.Value()
    ensures c == d
  {
    assert |c.Value()| == |d.Value()| && c.Value()[0] == d.Value()[0];
  }

  /** `get_all`: the value of every member, in declaration order; no value repeats. */
  function GetAll(): (r: seq<string>)
    ensures |r| == |Members| == 9
    ensures forall i :: 0 <= i < |r| ==> r[i] == Members[i].Value()
    ensures forall c: CollectionName :: c.Value() in r
  {
    var r := seq(|Members|, i requires 0 <= i < |Members| => Members[i].Value());
    assert forall c: CollectionName :: c.Position() < |r| && r[c.Position()] == c.Value();
    r
  }

  /** No collection name is listed twice. */
  lemma GetAllDistinct()
    ensures forall i, j :: 0 <= i < j < |GetAll()| ==> GetAll()[i] != GetAll()[j]
  {
    var r := GetAll();
    assert forall i, j :: 0 <= i < j < |r| ==> Members[i] != Members[j];
    forall i, j | 0 <= i < j < |r|
      ensures r[i] != r[j]
    {
      if r[i] == r[j] {
        ValueInjective(Members[i], Members[j]);
      }
    }
  }

  /** `str.lower` on one character, for the ASCII letters. */
  function LowerChar(c: char): char {
    if 'A' <= c <= 'Z' then (c as int - 'A' as int + 'a' as int) as char else c
  }

  function Lower(s: string): (r: string)
    ensures |r| == |s|
    ensures forall i :: 0 <= i < |s| ==> r[i] == LowerChar(s[i])
  {
    seq(|s|, i requires 0 <= i < |s| => LowerChar(s[i]))
  }

  /** Lower-casing twice is lower-casing once. */
  lemma LowerIdempotent(s: string)
    ensures Lower(Lower(s)) == Lower(s)
  {
  }

  /** The `match` on the lower-cased name: which member, if any, a model name selects. */
  function Select(name: string): (r: Option<CollectionName>)
    ensures r.Some? ==> name == r.value.ModelName()
  {
    if name == "userauth" then Some(UserAuth)
    else if name == "userprofile" then Some(UserProfiles)
    else if name == "video" then Some(Videos)
    else if name == "comment" then Some(Comments)
    else if name == "like" then Some(Likes)
    else if name == "follow" then Some(Follows)
    else if name == "tag" then Some(Tags)
    else if name == "message" then Some(Messages)
    else if name == "conversation" then Some(Conversations)
    else None
  }

  /** Every member's model name selects that member. */
  lemma SelectModelName(c: CollectionName)
    ensures Select(c.ModelName()) == Some(c)
  {
    match c
    case UserAuth =>
    case UserProfiles =>
    case Videos =>
    case Comments =>
    case Likes =>
    case Follows =>
    case Tags =>
    case Messages =>
    case Conversations =>
  }

  /**
   * `get_by_model_name`: the collection of the model whose name matches the argument once
   * lower-cased; any other name raises `ValueError` quoting the name as it was given.
   */
  function GetByModelName(modelName: string): (r: Result<string, Error>)
    ensures r.Failure? ==> r.error == UnknownModelName(modelName)
    ensures r.Success? ==> r.value in GetAll()
  {
    match Select(Lower(modelName))
    case Some(c) => Success(c.Value())
    case None => Failure(UnknownModelName(modelName))
  }

  /** A name is recognised exactly when its lower-case form is some member's model name, and then it maps to that member. */
  lemma GetByModelNameIff(modelName: string, c: CollectionName)
    ensures GetByModelName(modelName) == Success(c.Value()) <==> Lower(modelName) == c.ModelName()
  {
    SelectModelName(c);
    if GetByModelName(modelName) == Success(c.Value()) {
      var d := Select(Lower(modelName)).value;
      ValueInjective(c, d);
    }
  }

  /** Any name that is no member's model name, in any letter case, is refused. */
  lemma GetByModelNameUnknown(modelName: string)
    requires forall c: CollectionName :: Lower(modelName) != c.ModelName()
    ensures GetByModelName(modelName) == Failure(UnknownModelName(modelName))
  {
  }

  /** Each member is found under its own model name, in any letter case. */
  lemma GetByModelNameOfMember(c: CollectionName, spelled: string)
    requires Lower(spelled) == c.ModelName()
    ensures GetByModelName(spelled) == Success(c.Value())
  {
    GetByModelNameIff(spelled, c);
  }

  /** The lookup ignores letter case: a name and its lower-case form find the same collection. */
  lemma GetByModelNameCaseInsensitive(modelName: string)
    ensures GetByModelName(Lower(modelName)).Success? <==> GetByModelName(modelName).Success?
    ensures GetByModelName(modelName).Success? ==> GetByModelName(Lower(modelName)) == GetByModelName(modelName)
  {
    LowerIdempotent(modelName);
  }

  /** The two spellings the model uses for the user collections. */
  lemma UserCollectionNames()
    ensures GetByModelName("UserAuth") == Success("user_auth")
    ensures GetByModelName("UserProfile") == Success("user_profiles")
    ensures GetByModelName("users").Failure?
  {
    assert Lower("UserAuth") == "userauth";
    assert Lower("UserProfile") == "userprofile";
  }
}

=== FILE: draft_repository.dfy ===
/**
 * app/repositories/video/video_create_repository.py: the draft collection as a map from
 * `draft_id` to stored document, the video collection as a list, and the `$set` merge.
 */
module DraftRepository {
  import opened Wrappers
  import opened Enums
  import opened Errors
  import opened Models
  import opened Schemas

  /**
   * A draft as the collection holds it. Unlike `VideoDraft`, `privacy` and `finalized` may be
   * null here: the update schema declares both `Optional`, and `$set` writes whatever it is given.
   */
  datatype DraftDoc = DraftDoc(
    draftId: Uuid,
    userId: Uuid,
    originalFileName: Option<string>,
    editedFileName: Option<string>,
    trimmedStart: Option<Float>,
    trimmedEnd: Option<Float>,
    appliedMusicId: Option<string>,
    filtersApplied: Option<seq<string>>,
    stickersApplied: Option<seq<string>>,
    location: Option<string>,
    description: Option<string>,
    tags: Option<seq<string>>,
    privacy: Option<PrivacySetting>,
    status: VideoStatus,
    finalized: Option<bool>,
    createdAt: Timestamp,
    updatedAt: Timestamp)

  /**
   * The persistent state: the drafts collection keyed by `draft_id`, the videos collection in
   * insertion order, and the file references queued for background deletion.
   */
  datatype Store = Store(drafts: map<Uuid, DraftDoc>, videos: seq<Video>, pendingDeletes: seq<string>)

  /** The result of an operation together with the state it leaves behind. */
  datatype Outcome<+T, +E> = Outcome(store: Store, result: Result<T, E>)

  /** Every stored draft sits under its own id. */
  ghost predicate WellKeyed(s: Store) {
    forall k :: k in s.drafts ==> s.drafts[k].draftId == k
  }

  /** `draft.model_dump()`: the document `insert_one` stores. */
  function Dump(d: VideoDraft): DraftDoc {
    DraftDoc(d.draftId, d.userId, d.originalFileName, d.editedFileName, d.trimmedStart,
             d.trimmedEnd, d.appliedMusicId, d.filtersApplied, d.stickersApplied, d.location,
             d.description, d.tags, Some(d.privacy), d.status, Some(d.finalized),
             d.createdAt, d.updatedAt)
  }

  /**
   * `VideoDraft(**doc)`: validation rejects a null `privacy` or `finalized`, and otherwise
   * gives back the draft whose dump is exactly this document.
   */
  function Load(doc: DraftDoc): (r: Result<VideoDraft, Error>)
    ensures r.Success? <==> doc.privacy.Some? && doc.finalized.Some?
    ensures r.Success? ==> Dump(r.value) == doc
    ensures r.Failure? ==> r.error.ValidationError?
  {
    if doc.privacy.None? then Failure(ValidationError("privacy"))
    else if doc.finalized.None? then Failure(ValidationError("finalized"))
    else Success(VideoDraft(doc.draftId, doc.userId, doc.originalFileName, doc.editedFileName,
                            doc.trimmedStart, doc.trimmedEnd, doc.appliedMusicId,
                            doc.filtersApplied, doc.stickersApplied, doc.location,
                            doc.description, doc.tags, doc.privacy.value, doc.status,
                            doc.finalized.value, doc.createdAt, doc.updatedAt))
  }

  /** Storing a draft and reading it back gives the same draft. */
  lemma LoadDump(d: VideoDraft)
    ensures Load(Dump(d)) == Success(d)
  {
  }

  /** `map_draft`: no document maps to no draft; a document is validated into a draft, or its validation error raised. */
  function MapDraft(doc: Option<DraftDoc>): (r: Result<Option<VideoDraft>, Error>)
    ensures doc.None? ==> r == Success(None)
    ensures doc.Some? && Load(doc.value).Success? ==> r == Success(Some(Load(doc.value).value))
    ensures doc.Some? && Load(doc.value).Failure? ==> r == Failure(Load(doc.value).error)
    ensures r.Success? && r.value.Some? ==> doc.Some? && Dump(r.value.value) == doc.value
  {
    match doc
    case None => Success(None)
    case Some(d) =>
      match Load(d)
      case Success(v) => Success(Some(v))
      case Failure(e) => Failure(e)
  }

  /** `find_one({"draft_id": id, "user_id": owner})`. */
  function FindOne(s: Store, draftId: Uuid, userId: Uuid): (r: Option<DraftDoc>)
    ensures r.Some? <==> draftId in s.drafts && s.drafts[draftId].userId == userId
    ensures r.Some? ==> r.value == s.drafts[draftId]
  {
    if draftId in s.drafts && s.drafts[draftId].userId == userId then Some(s.drafts[draftId]) else None
  }

  /** `create_draft`: insert the dumped draft and hand back the very draft given. */
  function CreateDraft(s: Store, draft: VideoDraft): (r: Outcome<VideoDraft, Error>)
    ensures r.result == Success(draft)
    ensures r.store.drafts.Keys == s.drafts.Keys + {draft.draftId}
    ensures forall k :: k in s.drafts && k != draft.draftId ==> r.store.drafts[k] == s.drafts[k]
    ensures r.store.videos == s.videos && r.store.pendingDeletes == s.pendingDeletes
    ensures WellKeyed(s) ==> WellKeyed(r.store)
  {
    Outcome(s.(drafts := s.drafts[draft.draftId := Dump(draft)]), Success(draft))
  }

  /** `get_draft_by_id_and_user`: the stored draft, validated, exactly when both the id and the owner match. */
  function GetDraftByIdAndUser(s: Store, draftId: Uuid, userId: Uuid): (r: Result<Option<VideoDraft>, Error>)
    ensures r == Success(None) <==> !(draftId in s.drafts && s.drafts[draftId].userId == userId)
    ensures draftId in s.drafts && s.drafts[draftId].userId == userId && Load(s.drafts[draftId]).Success? ==>
      r == Success(Some(Load(s.drafts[draftId]).value))
    ensures draftId in s.drafts && s.drafts[draftId].userId == userId && Load(s.drafts[draftId]).Failure? ==>
      r == Failure(Load(s.drafts[draftId]).error)
    ensures r.Success? && r.value.Some? ==>
      draftId in s.drafts && Dump(r.value.value) == s.drafts[draftId]
      && r.value.value.userId == userId
  {
    MapDraft(FindOne(s, draftId, userId))
  }

  /**
   * The `$set` merge: every field the update carries overwrites the stored one (a null
   * included), every field it leaves out keeps its stored value, and the identity, owner,
   * original file, status and timestamps are out of its reach.
   */
  function Merge(doc: DraftDoc, u: DraftUpdate): (r: DraftDoc)
    ensures r.draftId == doc.draftId && r.userId == doc.userId
    ensures r.originalFileName == doc.originalFileName
    ensures r.status == doc.status
    ensures r.createdAt == doc.createdAt && r.updatedAt == doc.updatedAt
    ensures u.editedFileName.Unset? ==> r.editedFileName == doc.editedFileName
    ensures u.editedFileName.Set? ==> r.editedFileName == u.editedFileName.value
    ensures u.trimmedStart.Unset? ==> r.trimmedStart == doc.trimmedStart
    ensures u.trimmedStart.Set? ==> r.trimmedStart == u.trimmedStart.value
    ensures u.trimmedEnd.Unset? ==> r.trimmedEnd == doc.trimmedEnd
    ensures u.trimmedEnd.Set? ==> r.trimmedEnd == u.trimmedEnd.value
    ensures u.appliedMusicId.Unset? ==> r.appliedMusicId == doc.appliedMusicId
    ensures u.appliedMusicId.Set? ==> r.appliedMusicId == u.appliedMusicId.value
    ensures u.filtersApplied.Unset? ==> r.filtersApplied == doc.filtersApplied
    ensures u.filtersApplied.Set? ==> r.filtersApplied == u.filtersApplied.value
    ensures u.stickersApplied.Unset? ==> r.stickersApplied == doc.stickersApplied
    ensures u.stickersApplied.Set? ==> r.stickersApplied == u.stickersApplied.value
    ensures u.location.Unset? ==> r.location == doc.location
    ensures u.location.Set? ==> r.location == u.location.value
    ensures u.description.Unset? ==> r.description == doc.description
    ensures u.description.Set? ==> r.description == u.description.value
    ensures u.tags.Unset? ==> r.tags == doc.tags
    ensures u.tags.Set? ==> r.tags == u.tags.value
    ensures u.privacy.Unset? ==> r.privacy == doc.privacy
    ensures u.privacy.Set? ==> r.privacy == u.privacy.value
    ensures u.finalized.Unset? ==> r.finalized == doc.finalized
    ensures u.finalized.Set? ==> r.finalized == u.finalized.value
  {
    doc.(editedFileName := u.editedFileName.Over(doc.editedFileName),
         trimmedStart := u.trimmedStart.Over(doc.trimmedStart),
         trimmedEnd := u.trimmedEnd.Over(doc.trimmedEnd),
         appliedMusicId := u.appliedMusicId.Over(doc.appliedMusicId),
         filtersApplied := u.filtersApplied.Over(doc.filtersApplied),
         stickersApplied := u.stickersApplied.Over(doc.stickersApplied),
         location := u.location.Over(doc.location),
         description := u.description.Over(doc.description),
         tags := u.tags.Over(doc.tags),
         privacy := u.privacy.Over(doc.privacy),
         finalized := u.finalized.Over(doc.finalized))
  }

  /** The update that applies `first`, then `second`: per field, the later one wins. */
  function Then(first: DraftUpdate, second: DraftUpdate): DraftUpdate {
    DraftUpdate(
      if second.editedFileName.Set? then second.editedFileName else first.editedFileName,
      if second.trimmedStart.Set? then second.trimmedStart else first.trimmedStart,
      if second.trimmedEnd.Set? then second.trimmedEnd else first.trimmedEnd,
      if second.appliedMusicId.Set? then second.appliedMusicId else first.appliedMusicId,
      if second.filtersApplied.Set? then second.filtersApplied else first.filtersApplied,
      if second.stickersApplied.Set? then second.stickersApplied else first.stickersApplied,
      if second.location.Set? then second.location else first.location,
      if second.description.Set? then second.description else first.description,
      if second.tags.Set? then second.tags else first.tags,
      if second.privacy.Set? then second.privacy else first.privacy,
      if second.finalized.Set? then second.finalized else first.finalized)
  }

  /** An update that sets nothing leaves the document as it was. */
  lemma MergeNothing(doc: DraftDoc)
    ensures Merge(doc, NoUpdate()) == doc
  {
  }

  /** Applying the same update twice stores what applying it once stores. */
  lemma MergeIdempotent(doc: DraftDoc, u: DraftUpdate)
    ensures Merge(Merge(doc, u), u) == Merge(doc, u)
  {
  }

  /** Two updates in a row are one update where the later field wins (last write wins). */
  lemma MergeThen(doc: DraftDoc, first: DraftUpdate, second: DraftUpdate)
    ensures Merge(Merge(doc, first), second) == Merge(doc, Then(first, second))
  {
  }

  /**
   * `update_draft`: `find_one_and_update` with the (id, owner) filter and `return_document=True`.
   * On a match the merged document is written and then validated for the return value (so a
   * validation failure comes after the write); with no match nothing changes and none is returned.
   */
  function UpdateDraft(s: Store, draftId: Uuid, userId: Uuid, u: DraftUpdate): (r: Outcome<Option<VideoDraft>, Error>)
    ensures FindOne(s, draftId, userId).None? ==> r == Outcome(s, Success(None))
    ensures FindOne(s, draftId, userId).Some? ==>
      && r.store == s.(drafts := s.drafts[draftId := Merge(s.drafts[draftId], u)])
      && r.result == MapDraft(Some(Merge(s.drafts[draftId], u)))
      && r.result != Success(None)
    ensures WellKeyed(s) ==> WellKeyed(r.store)
  {
    match FindOne(s, draftId, userId)
    case None => Outcome(s, MapDraft(None))
    case Some(doc) =>
      var merged := Merge(doc, u);
      Outcome(s.(drafts := s.drafts[draftId := merged]), MapDraft(Some(merged)))
  }

  /** `mark_draft_finalized`: `$set {"finalized": true}` on the draft with this id, whoever owns it. */
  function MarkDraftFinalized(s: Store, draftId: Uuid): (r: Store)
    ensures r.drafts.Keys == s.drafts.Keys
    ensures draftId in s.drafts ==> r.drafts[draftId] == s.drafts[draftId].(finalized := Some(true))
    ensures forall k :: k in s.drafts && k != draftId ==> r.drafts[k] == s.drafts[k]
    ensures r.videos == s.videos && r.pendingDeletes == s.pendingDeletes
    ensures WellKeyed(s) ==> WellKeyed(r)
  {
    if draftId in s.drafts then s.(drafts := s.drafts[draftId := s.drafts[draftId].(finalized := Some(true))])
    else s
  }

  /** Marking a draft finalized twice is marking it once. */
  lemma MarkDraftFinalizedIdempotent(s: Store, draftId: Uuid)
    ensures MarkDraftFinalized(MarkDraftFinalized(s, draftId), draftId) == MarkDraftFinalized(s, draftId)
  {
  }

  /** `create_video`: append the video to the videos collection and return it. */
  function CreateVideo(s: Store, v: Video): (r: Outcome<Video, Error>)
    ensures r.result == Success(v)
    ensures r.store.videos == s.videos + [v]
    ensures r.store.drafts == s.drafts && r.store.pendingDeletes == s.pendingDeletes
  {
    Outcome(s.(videos := s.videos + [v]), Success(v))
  }
}

=== FILE: draft_router.dfy ===
/**
 * app/api/video/video_create_router.py: the HTTP endpoints of the draft lifecycle. The caller
 * is whoever the access token names; every failure of the layer below becomes a 500 response.
 * Logging is left out, except where evaluating a log line changes the outcome.
 */
module DraftRouter {
  import opened Wrappers
  import opened Errors
  import opened Models
  import opened Schemas
  import opened DraftRepository
  import opened DraftService
  import S3Keys

  /** The user `get_logged_in_user` resolves from the request's token. */
  datatype Caller = Caller(userId: Uuid)

  datatype HttpError = HttpError(status: int, detail: string)

  /** The folder an upload from this user goes to. */
  function UploadFolder(userIdText: string): string {
    "videos/" + userIdText
  }

  /**
   * `generate_upload_url`: a presigned PUT for a fresh key in the caller's folder; a storage
   * failure becomes a 500. `uuidText` is `str(UUID)`, `freshText` the text of the fresh `uuid4()`.
   */
  function GenerateUploadUrl(caller: Caller, request: UploadRequest, uuidText: Uuid -> string, freshText: string,
                             presign: (string, string, int) -> Option<string>)
    : (r: Result<UploadUrlResponse, HttpError>)
    ensures r.Success? <==>
      presign(S3Keys.GenerateKey(UploadFolder(uuidText(caller.userId)), request.fileName, freshText),
              request.contentType, S3Keys.DefaultExpiresIn).Some?
    ensures r.Failure? ==> r.error == HttpError(500, "Failed to generate upload URL")
    ensures r.Success? ==>
      && r.value.key == S3Keys.GenerateKey(UploadFolder(uuidText(caller.userId)), request.fileName, freshText)
      && presign(r.value.key, request.contentType, S3Keys.DefaultExpiresIn) == Some(r.value.url)
  {
    match S3Keys.GeneratePresignedUploadUrl(UploadFolder(uuidText(caller.userId)), request.fileName,
                                            request.contentType, freshText, presign)
    case Success(response) => Success(response)
    case Failure(_) => Failure(HttpError(500, "Failed to generate upload URL"))
  }

  /**
   * With uuid texts free of slashes (as `str(UUID)` is), two fresh uuids never share a key,
   * whatever file name the client sends; for a file name without slashes the key is literally
   * `videos/<user>/<fresh>.<extension>`.
   */
  lemma UploadKeyInCallerFolder(userIdText: string, fileName: string, newText: string, otherText: string)
    requires userIdText != "" && userIdText != "." && '/' !in userIdText
    requires newText != "" && otherText != "" && '/' !in newText && '/' !in otherText
    ensures '/' !in fileName ==>
      S3Keys.GenerateKey(UploadFolder(userIdText), fileName, newText)
      == "videos/" + userIdText + "/" + newText + "." + S3Keys.Extension(fileName)
    ensures newText != otherText ==>
      S3Keys.GenerateKey(UploadFolder(userIdText), fileName, newText)
      != S3Keys.GenerateKey(UploadFolder(userIdText), fileName, otherText)
  {
    if '/' !in fileName {
      UploadKeyShape(userIdText, fileName, newText);
    }
    var folder := UploadFolder(userIdText);
    if S3Keys.GenerateKey(folder, fileName, newText) == S3Keys.GenerateKey(folder, fileName, otherText) {
      S3Keys.GenerateKeyInjective(folder, fileName, newText, otherText);
    }
  }

  /** The upload folder of a proper user id text is clean, so the key keeps its literal shape. */
  lemma UploadKeyShape(userIdText: string, fileName: string, newText: string)
    requires userIdText != "" && userIdText != "." && '/' !in userIdText
    requires newText != "" && '/' !in newText && '/' !in fileName
    ensures S3Keys.GenerateKey(UploadFolder(userIdText), fileName, newText)
            == "videos/" + userIdText + "/" + newText + "." + S3Keys.Extension(fileName)
  {
    assert "videos" + "/" == "videos/";
    S3Keys.CleanTwoPieces("videos", userIdText);
    S3Keys.GenerateKeyShape(UploadFolder(userIdText), fileName, newText);
  }

  /** `create_video_draft`: a new draft owned by the caller. */
  function CreateVideoDraft(s: Store, caller: Caller, input: DraftCreate, draftId: Uuid, now: Timestamp)
    : (r: Outcome<DraftResponse, HttpError>)
    ensures r.result == Success(DraftResponse(input, draftId, Enums.Draft, now))
    ensures r.store == DraftService.CreateDraft(s, input, caller.userId, draftId, now).store
    ensures r.store.drafts.Keys == s.drafts.Keys + {draftId}
    ensures draftId in r.store.drafts && r.store.drafts[draftId].userId == caller.userId
    ensures forall k :: k in s.drafts && k != draftId ==> r.store.drafts[k] == s.drafts[k]
    ensures r.store.videos == s.videos && r.store.pendingDeletes == s.pendingDeletes
  {
    var out := DraftService.CreateDraft(s, input, caller.userId, draftId, now);
    LoadDump(DraftFrom(input, draftId, caller.userId, now));
    match out.result
    case Success(d) => Outcome(out.store, Success(d))
    case Failure(_) => Outcome(out.store, Failure(HttpError(500, "Failed to create video draft")))
  }

  /** `update_video_draft`: the caller's sparse update of the draft named in the path. */
  function UpdateVideoDraft(s: Store, caller: Caller, draftId: Uuid, updates: DraftUpdate)
    : (r: Outcome<DraftResponse, HttpError>)
    ensures var service := DraftService.UpdateDraft(s, draftId, caller.userId, updates);
      && r.store == service.store
      && (r.result.Success? <==> service.result.Success?)
      && (r.result.Success? ==> r.result.value == service.result.value)
    ensures r.result.Failure? ==> r.result.error == HttpError(500, "Failed to update video draft")
    ensures FindOne(s, draftId, caller.userId).None? ==> r.store == s && r.result.Failure?
    ensures FindOne(s, draftId, caller.userId).Some? ==>
      r.store.drafts == s.drafts[draftId := Merge(s.drafts[draftId], updates)]
    ensures r.store.videos == s.videos && r.store.pendingDeletes == s.pendingDeletes
  {
    var out := DraftService.UpdateDraft(s, draftId, caller.userId, updates);
    match out.result
    case Success(d) => Outcome(out.store, Success(d))
    case Failure(_) => Outcome(out.store, Failure(HttpError(500, "Failed to update video draft")))
  }

  /** Whether the router queues the original file for deletion: only a non-empty name. */
  predicate Truthy(name: Option<string>) {
    name.Some? && name.value != ""
  }

  /** Python's truth test on a `str | None`: `None` and the empty string are the only false values. */
  lemma TruthyFalseValues(name: Option<string>)
    ensures !Truthy(name) <==> name == None || name == Some("")
  {
  }

  /**
   * `finalize_draft_to_video` as written: after the service succeeds, the log line reads
   * `finalize_request.user_id`, a field the request schema does not have. The resulting
   * `AttributeError` is caught like any other failure, so the response is a 500, the writes of
   * the finalize stay, and the clean-up is never queued.
   */
  function FinalizeDraftToVideoAsWritten(s: Store, caller: Caller, request: FinalizeRequest, videoId: Uuid, now: Timestamp)
    : (r: Outcome<VideoResponse, HttpError>)
    ensures r.result == Failure(HttpError(500, "Failed to finalize video draft"))
    ensures r.store.pendingDeletes == s.pendingDeletes
    ensures r.store == DraftService.FinalizeDraft(s, request.draftId, caller.userId, videoId, now).store
  {
    var out := DraftService.FinalizeDraft(s, request.draftId, caller.userId, videoId, now);
    var failed := Outcome(out.store, Failure(HttpError(500, "Failed to finalize video draft")));
    match out.result
    case Failure(_) => failed
    case Success(_) =>
      // building the log message reads `finalize_request.user_id`; the `AttributeError` it
      // raises lands in the same handler, before the clean-up branch is reached
      failed
  }

  /**
   * `finalize_draft_to_video` as intended: only the request's `draft_id` is used, the owner is
   * the caller, and on success the original file is queued for deletion when its name is
   * non-empty. Any failure is a 500 and queues nothing.
   */
  function FinalizeDraftToVideo(s: Store, caller: Caller, request: FinalizeRequest, videoId: Uuid, now: Timestamp)
    : (r: Outcome<VideoResponse, HttpError>)
    ensures var service := DraftService.FinalizeDraft(s, request.draftId, caller.userId, videoId, now);
      && (r.result.Success? <==> service.result.Success?)
      && r.store.drafts == service.store.drafts
      && r.store.videos == service.store.videos
      && (r.result.Success? ==> r.result.value == service.result.value.video)
      && (r.store.pendingDeletes
          == if service.result.Success? && Truthy(service.result.value.originalFileName)
             then s.pendingDeletes + [service.result.value.originalFileName.value]
             else s.pendingDeletes)
    ensures r.result.Failure? ==> r.store == s && r.result.error == HttpError(500, "Failed to finalize video draft")
  {
    var out := DraftService.FinalizeDraft(s, request.draftId, caller.userId, videoId, now);
    match out.result
    case Failure(_) => Outcome(out.store, Failure(HttpError(500, "Failed to finalize video draft")))
    case Success(Finalized(video, original)) =>
      var queued := if Truthy(original) then out.store.pendingDeletes + [original.value] else out.store.pendingDeletes;
      Outcome(out.store.(pendingDeletes := queued), Success(video))
  }

  /**
   * Where the finalize succeeds, the code as written and the intended route part ways: both
   * publish the video and mark the draft, but the written one answers 500 and never queues
   * the original file, while the intended one answers with the video and queues it.
   */
  lemma FinalizeLogLineLosesCleanup(s: Store, caller: Caller, request: FinalizeRequest, videoId: Uuid, now: Timestamp)
    requires DraftService.FinalizeDraft(s, request.draftId, caller.userId, videoId, now).result.Success?
    requires Truthy(DraftService.FinalizeDraft(s, request.draftId, caller.userId, videoId, now).result.value.originalFileName)
    ensures var written := FinalizeDraftToVideoAsWritten(s, caller, request, videoId, now);
      var intended := FinalizeDraftToVideo(s, caller, request, videoId, now);
      && written.result.Failure? && intended.result.Success?
      && |written.store.videos| == |s.videos| + 1 && written.store.videos == intended.store.videos
      && |written.store.pendingDeletes| == |s.pendingDeletes|
      && |intended.store.pendingDeletes| == |s.pendingDeletes| + 1
  {
  }

  /** Only the request's `draft_id` matters: title, thumbnail, tags and the rest change nothing. */
  lemma FinalizeReadsOnlyDraftId(s: Store, caller: Caller, a: FinalizeRequest, b: FinalizeRequest, videoId: Uuid, now: Timestamp)
    requires a.draftId == b.draftId
    ensures FinalizeDraftToVideo(s, caller, a, videoId, now) == FinalizeDraftToVideo(s, caller, b, videoId, now)
  {
  }

  /** A caller who does not own the draft can neither update nor finalize it, and changes nothing trying. */
  lemma ForeignCallerRefused(s: Store, caller: Caller, draftId: Uuid, updates: DraftUpdate,
                             request: FinalizeRequest, videoId: Uuid, now: Timestamp)
    requires draftId in s.drafts && s.drafts[draftId].userId != caller.userId
    requires request.draftId == draftId
    ensures UpdateVideoDraft(s, caller, draftId, updates) == Outcome(s, Failure(HttpError(500, "Failed to update video draft")))
    ensures FinalizeDraftToVideo(s, caller, request, videoId, now) == Outcome(s, Failure(HttpError(500, "Failed to finalize video draft")))
  {
  }
}

=== FILE: draft_service.dfy ===
/**
 * app/services/video/video_create_service.py: the draft lifecycle transitions. The fresh
 * `uuid4()` and clock reads of the source are parameters.
 */
module DraftService {
  import opened Wrappers
  import opened Enums
  import opened Errors
  import opened Models
  import opened Schemas
  import opened DraftRepository

  /** What a successful finalize hands back: the video view and the file to clean up, if any. */
  datatype Finalized = Finalized(video: VideoResponse, originalFileName: Option<string>)

  /** The draft `create_draft` builds from the request body, owned by the caller. */
  function DraftFrom(input: DraftCreate, draftId: Uuid, userId: Uuid, now: Timestamp): VideoDraft {
    VideoDraft(draftId, userId, input.originalFileName, input.editedFileName, input.trimmedStart,
               input.trimmedEnd, input.appliedMusicId, input.filtersApplied,
               input.stickersApplied, input.location, input.description, input.tags,
               input.privacy, Draft, false, now, now)
  }

  /** The video `finalize_draft` builds from a draft, before validation of `s3_url`. */
  function VideoFrom(d: VideoDraft, videoId: Uuid, userId: Uuid, now: Timestamp): Video {
    Video(videoId, userId, "", None, d.description, d.tags, d.location, None, now, 0,
          d.privacy, false, Published, now, now)
  }

  /**
   * `create_draft`: a new draft owned by `userId`, in status draft and not finalized, holding
   * every field of the input; the response echoes the input with the new id, status and time.
   */
  function CreateDraft(s: Store, input: DraftCreate, userId: Uuid, draftId: Uuid, now: Timestamp)
    : (r: Outcome<DraftResponse, Error>)
    ensures r.result.Success?
    ensures r.result.value == DraftResponse(input, draftId, Draft, now)
    ensures draftId in r.store.drafts
    ensures Load(r.store.drafts[draftId]).Success?
    ensures var d := Load(r.store.drafts[draftId]).value;
      && d.userId == userId && d.draftId == draftId
      && d.status == Draft && !d.finalized
      && CreateFieldsOf(d) == input
    ensures r.store.drafts.Keys == s.drafts.Keys + {draftId}
    ensures forall k :: k in s.drafts && k != draftId ==> r.store.drafts[k] == s.drafts[k]
    ensures r.store.videos == s.videos && r.store.pendingDeletes == s.pendingDeletes
    ensures WellKeyed(s) ==> WellKeyed(r.store)
  {
    var draft := DraftFrom(input, draftId, userId, now);
    var saved := DraftRepository.CreateDraft(s, draft);
    LoadDump(draft);
    Outcome(saved.store, Success(DraftResponse(input, saved.result.value.draftId,
                                               saved.result.value.status,
                                               saved.result.value.createdAt)))
  }

  /**
   * `update_draft`: merge the fields the client set into the caller's draft. No draft with
   * this id and owner: "Draft not found or access denied", and nothing changes. Otherwise the
   * merge is written, and the call succeeds exactly when the merged document is a valid draft.
   */
  function UpdateDraft(s: Store, draftId: Uuid, userId: Uuid, u: DraftUpdate)
    : (r: Outcome<DraftResponse, Error>)
    ensures FindOne(s, draftId, userId).None? ==>
      r == Outcome(s, Failure(DraftNotFoundOrAccessDenied))
    ensures FindOne(s, draftId, userId).Some? ==>
      r.store.drafts == s.drafts[draftId := Merge(s.drafts[draftId], u)]
    ensures FindOne(s, draftId, userId).Some? ==>
      (r.result.Success? <==> Load(Merge(s.drafts[draftId], u)).Success?)
    ensures FindOne(s, draftId, userId).Some? && Load(Merge(s.drafts[draftId], u)).Failure? ==>
      r.result == Failure(Load(Merge(s.drafts[draftId], u)).error)
    ensures r.store.videos == s.videos && r.store.pendingDeletes == s.pendingDeletes
    ensures r.result.Success? ==>
      && draftId in r.store.drafts
      && Load(r.store.drafts[draftId]).Success?
      && var d := Load(r.store.drafts[draftId]).value;
      r.result.value == DraftResponse(CreateFieldsOf(d), d.draftId, d.status, d.createdAt)
    ensures WellKeyed(s) ==> WellKeyed(r.store)
  {
    var updated := DraftRepository.UpdateDraft(s, draftId, userId, u);
    match updated.result
    case Failure(e) => Outcome(updated.store, Failure(e))
    case Success(None) => Outcome(updated.store, Failure(DraftNotFoundOrAccessDenied))
    case Success(Some(d)) =>
      LoadDump(d);
      Outcome(updated.store, Success(DraftResponse(CreateFieldsOf(d), d.draftId, d.status, d.createdAt)))
  }

  /**
   * `finalize_draft`, in the source's order: look the draft up by id and owner, refuse a
   * finalized one, build the video (which needs an edited file), persist it, mark the draft
   * finalized, and return the video view with the draft's original file name.
   */
  function FinalizeDraft(s: Store, draftId: Uuid, userId: Uuid, videoId: Uuid, now: Timestamp)
    : (r: Outcome<Finalized, Error>)
    ensures FindOne(s, draftId, userId).None? ==>
      r == Outcome(s, Failure(DraftNotFoundOrAccessDenied))
    ensures r.result.Failure? ==> r.store == s
    ensures r.result.Success? ==>
      && draftId in s.drafts
      && Load(s.drafts[draftId]).Success?
      && var d := Load(s.drafts[draftId]).value;
      && d.userId == userId
      && !d.finalized
      && d.editedFileName.Some?
      && var v := VideoFrom(d, videoId, userId, now).(s3Url := d.editedFileName.value);
      && r.store == MarkDraftFinalized(s.(videos := s.videos + [v]), draftId)
      && r.result.value == Finalized(ToVideoResponse(v), d.originalFileName)
    ensures WellKeyed(s) ==> WellKeyed(r.store)
  {
    match GetDraftByIdAndUser(s, draftId, userId)
    case Failure(e) => Outcome(s, Failure(e))
    case Success(None) => Outcome(s, Failure(DraftNotFoundOrAccessDenied))
    case Success(Some(draft)) =>
      if draft.finalized then Outcome(s, Failure(DraftAlreadyFinalized))
      else
        match BuildVideo(VideoFrom(draft, videoId, userId, now), draft.editedFileName)
        case Failure(e) => Outcome(s, Failure(e))
        case Success(video) =>
          LoadDump(draft);
          var saved := CreateVideo(s, video);
          var marked := MarkDraftFinalized(saved.store, draftId);
          Outcome(marked, Success(Finalized(ToVideoResponse(saved.result.value), draft.originalFileName)))
  }

  /** A draft just created is found again under its id and owner, unfinalized and in status draft. */
  lemma CreatedDraftIsFound(s: Store, input: DraftCreate, userId: Uuid, draftId: Uuid, now: Timestamp)
    ensures var after := CreateDraft(s, input, userId, draftId, now).store;
      && GetDraftByIdAndUser(after, draftId, userId) == Success(Some(DraftFrom(input, draftId, userId, now)))
      && !DraftFrom(input, draftId, userId, now).finalized
      && DraftFrom(input, draftId, userId, now).status == Draft
  {
    LoadDump(DraftFrom(input, draftId, userId, now));
  }

  /** An empty create body gives exactly the draft the model's own defaults describe. */
  lemma EmptyCreateIsDefaultDraft(draftId: Uuid, userId: Uuid, now: Timestamp)
    ensures DraftFrom(EmptyDraftCreate(), draftId, userId, now) == DefaultDraft(draftId, userId, now)
  {
  }

  /**
   * Finalize succeeds exactly when the caller owns a draft under that id that is valid, not
   * yet finalized, and has an edited file; otherwise it fails with the first failing check's error.
   */
  lemma FinalizeSucceedsIff(s: Store, draftId: Uuid, userId: Uuid, videoId: Uuid, now: Timestamp)
    ensures var r := FinalizeDraft(s, draftId, userId, videoId, now);
      && (r.result.Success? <==>
            && draftId in s.drafts && s.drafts[draftId].userId == userId
            && Load(s.drafts[draftId]).Success?
            && !Load(s.drafts[draftId]).value.finalized
            && s.drafts[draftId].editedFileName.Some?)
      && (draftId in s.drafts && s.drafts[draftId].userId == userId && Load(s.drafts[draftId]).Failure? ==>
            r.result == Failure(Load(s.drafts[draftId]).error))
      && (draftId in s.drafts && s.drafts[draftId].userId == userId && s.drafts[draftId].finalized == Some(true) ==>
            r.result.Failure? && r.result.error in {DraftAlreadyFinalized, ValidationError("privacy")})
  {
  }

  /**
   * The published video is a default `Video` for the caller whose storage reference is the
   * draft's edited file and whose description, location, tags and privacy are the draft's:
   * zero views, not featured, published, no thumbnail, no duration.
   */
  lemma FinalizedVideoFields(s: Store, draftId: Uuid, userId: Uuid, videoId: Uuid, now: Timestamp)
    requires FinalizeDraft(s, draftId, userId, videoId, now).result.Success?
    ensures var d := Load(s.drafts[draftId]).value;
      var after := FinalizeDraft(s, draftId, userId, videoId, now).store;
      && |after.videos| == |s.videos| + 1 && after.videos[..|s.videos|] == s.videos
      && after.videos[|s.videos|]
         == DefaultVideo(videoId, userId, d.editedFileName.value, now)
              .(description := d.description, location := d.location, tags := d.tags, privacy := d.privacy)
      && after.videos[|s.videos|].views == 0 && !after.videos[|s.videos|].isFeatured
      && after.videos[|s.videos|].status == Published && after.videos[|s.videos|].thumbnailUrl.None?
  {
    var d := Load(s.drafts[draftId]).value;
    var after := FinalizeDraft(s, draftId, userId, videoId, now).store;
    assert after.videos == s.videos + [VideoFrom(d, videoId, userId, now).(s3Url := d.editedFileName.value)];
  }

  /**
   * After a successful finalize the draft is marked finalized, the caller gets back its
   * original file name, and finalizing it again straight away fails without touching anything.
   */
  lemma FinalizeOnlyOnce(s: Store, draftId: Uuid, userId: Uuid, videoId: Uuid, again: Uuid, now: Timestamp, later: Timestamp)
    requires FinalizeDraft(s, draftId, userId, videoId, now).result.Success?
    ensures var first := FinalizeDraft(s, draftId, userId, videoId, now);
      && first.store.drafts[draftId] == s.drafts[draftId].(finalized := Some(true))
      && first.result.value.originalFileName == s.drafts[draftId].originalFileName
      && FinalizeDraft(first.store, draftId, userId, again, later) == Outcome(first.store, Failure(DraftAlreadyFinalized))
  {
    var first := FinalizeDraft(s, draftId, userId, videoId, now);
    var doc := first.store.drafts[draftId];
    LoadDump(Load(s.drafts[draftId]).value);
    assert Load(doc).Success? && Load(doc).value.finalized;
  }

  /**
   * A draft whose edited file was never set cannot be finalized: building the video fails on
   * the missing `s3_url` before anything is written.
   */
  lemma FinalizeNeedsEditedFile(s: Store, draftId: Uuid, userId: Uuid, videoId: Uuid, now: Timestamp)
    requires draftId in s.drafts && s.drafts[draftId].userId == userId
    requires s.drafts[draftId].privacy.Some? && s.drafts[draftId].finalized == Some(false)
    requires s.drafts[draftId].editedFileName.None?
    ensures FinalizeDraft(s, draftId, userId, videoId, now) == Outcome(s, Failure(ValidationError("s3_url")))
  {
  }

  /** No update, by anyone, can change which original file a draft refers to, or who owns it. */
  lemma UpdateKeepsOriginalAndOwner(s: Store, draftId: Uuid, userId: Uuid, u: DraftUpdate)
    requires draftId in s.drafts
    ensures var after := UpdateDraft(s, draftId, userId, u).store;
      && draftId in after.drafts
      && after.drafts[draftId].originalFileName == s.drafts[draftId].originalFileName
      && after.drafts[draftId].userId == s.drafts[draftId].userId
  {
  }

  /** Sending the same update twice leaves the store as sending it once. */
  lemma UpdateTwiceIsUpdateOnce(s: Store, draftId: Uuid, userId: Uuid, u: DraftUpdate)
    ensures var once := UpdateDraft(s, draftId, userId, u).store;
      UpdateDraft(once, draftId, userId, u).store == once
  {
    if FindOne(s, draftId, userId).Some? {
      MergeIdempotent(s.drafts[draftId], u);
    }
  }

  /**
   * An update that sets `privacy` to null is written, and the draft cannot be read back until
   * an update sets privacy again: the update itself reports a validation error, and so does a
   * finalize straight after it.
   */
  lemma NullPrivacyIsWrittenThenUnreadable(s: Store, draftId: Uuid, userId: Uuid, u: DraftUpdate,
                                           videoId: Uuid, now: Timestamp)
    requires draftId in s.drafts && s.drafts[draftId].userId == userId
    requires u.privacy == Set(None)
    ensures var r := UpdateDraft(s, draftId, userId, u);
      && r.store.drafts[draftId] == Merge(s.drafts[draftId], u)
      && r.result == Failure(ValidationError("privacy"))
      && FinalizeDraft(r.store, draftId, userId, videoId, now) == Outcome(r.store, Failure(ValidationError("privacy")))
  {
  }

  /**
   * The null is not permanent: `update_draft` writes before it validates, so a later update
   * that sets `privacy` again makes the draft readable, and the update succeeds.
   */
  lemma NullPrivacyRepairable(s: Store, draftId: Uuid, userId: Uuid, u: DraftUpdate, p: PrivacySetting)
    requires draftId in s.drafts && s.drafts[draftId].userId == userId
    requires u.privacy == Set(None) && s.drafts[draftId].finalized.Some? && u.finalized.Unset?
    ensures var s1 := UpdateDraft(s, draftId, userId, u).store;
      var r := UpdateDraft(s1, draftId, userId, NoUpdate().(privacy := Set(Some(p))));
      && r.result.Success?
      && Load(r.store.drafts[draftId]).Success?
      && Load(r.store.drafts[draftId]).value.privacy == p
  {
  }

  /**
   * An edited file set to the empty string is not refused: `s3_url` is a plain `str`, so the
   * finalize publishes a video whose storage reference is empty.
   */
  lemma EmptyEditedFilePublishesEmptyUrl(s: Store, draftId: Uuid, userId: Uuid, videoId: Uuid, now: Timestamp)
    requires draftId in s.drafts && s.drafts[draftId].userId == userId
    requires s.drafts[draftId].privacy.Some? && s.drafts[draftId].finalized == Some(false)
    requires s.drafts[draftId].editedFileName == Some("")
    ensures var r := FinalizeDraft(s, draftId, userId, videoId, now);
      && r.result.Success?
      && r.result.value.video.s3Url == ""
      && |r.store.videos| == |s.videos| + 1 && r.store.videos[|s.videos|].s3Url == ""
  {
  }
}

=== FILE: enums.dfy ===
/** The string enums of app/core/enums.py that the video core uses; only the members matter. */
module Enums {

  datatype PrivacySetting = Public | FollowersOnly | Private

  datatype VideoStatus = Draft | Published | Deleted
}

=== FILE: errors.dfy ===
/** The exceptions the video core raises, by kind. */
module Errors {

  datatype Error =
    /** `ValueError("Draft not found or access denied")` */
    | DraftNotFoundOrAccessDenied
    /** `ValueError("Draft already finalized")` */
    | DraftAlreadyFinalized
    /** pydantic `ValidationError` while building a record; names the offending field */
    | ValidationError(field: string)
    /** `ValueError("Unknown model name: ...")`, carrying the name as given */
    | UnknownModelName(name: string)
    /** the object store's `ClientError`, re-raised as a plain `Exception` */
    | StorageError
}

=== FILE: lifecycle.dfy ===
/**
 * Sequences of draft requests, each handled as one atomic step through the endpoints of
 * app/api/video/video_create_router.py (finalize as intended, with its clean-up queued).
 */
module Lifecycle {
  import opened Wrappers
  import opened Errors
  import opened Models
  import opened Schemas
  import opened DraftRepository
  import opened DraftService
  import opened DraftRouter

  datatype Request =
    | CreateRequest(caller: Caller, input: DraftCreate, draftId: Uuid, now: Timestamp)
    | UpdateRequest(caller: Caller, draftId: Uuid, updates: DraftUpdate)
    | FinalizeRequestOf(caller: Caller, finalize: FinalizeRequest, videoId: Uuid, now: Timestamp)

  /** The state after one request. */
  function Step(s: Store, req: Request): Store {
    match req
    case CreateRequest(caller, input, draftId, now) => CreateVideoDraft(s, caller, input, draftId, now).store
    case UpdateRequest(caller, draftId, updates) => UpdateVideoDraft(s, caller, draftId, updates).store
    case FinalizeRequestOf(caller, finalize, videoId, now) => FinalizeDraftToVideo(s, caller, finalize, videoId, now).store
  }

  /** The state after the requests, in order. */
  function Run(s: Store, reqs: seq<Request>): Store
    decreases |reqs|
  {
    if |reqs| == 0 then s else Run(Step(s, reqs[0]), reqs[1..])
  }

  /** The request publishes a video from draft `d`. */
  predicate Publishes(s: Store, req: Request, d: Uuid) {
    && req.FinalizeRequestOf?
    && req.finalize.draftId == d
    && FinalizeDraftToVideo(s, req.caller, req.finalize, req.videoId, req.now).result.Success?
  }

  /** How many of the requests publish a video from draft `d`. */
  function Publications(s: Store, reqs: seq<Request>, d: Uuid): nat
    decreases |reqs|
  {
    if |reqs| == 0 then 0
    else (if Publishes(s, reqs[0], d) then 1 else 0) + Publications(Step(s, reqs[0]), reqs[1..], d)
  }

  /**
   * The request could make draft `d` finalizable again: an update that sets its `finalized`
   * field (the update schema allows it), or a create that reuses its id.
   */
  predicate Reopens(req: Request, d: Uuid) {
    || (req.UpdateRequest? && req.draftId == d && req.updates.finalized.Set?)
    || (req.CreateRequest? && req.draftId == d)
  }

  /** A finalized draft stays finalized, and unpublishable, under any request that does not reopen it. */
  lemma FinalizedIsStable(s: Store, req: Request, d: Uuid)
    requires d in s.drafts && s.drafts[d].finalized == Some(true)
    requires !Reopens(req, d)
    ensures !Publishes(s, req, d)
    ensures var t := Step(s, req); d in t.drafts && t.drafts[d].finalized == Some(true)
  {
  }

  /** A publication of `d` leaves `d` finalized. */
  lemma PublishingFinalizes(s: Store, req: Request, d: Uuid)
    requires Publishes(s, req, d)
    ensures var t := Step(s, req); d in t.drafts && t.drafts[d].finalized == Some(true)
  {
  }

  /** From a finalized draft, requests that never reopen it publish nothing from it. */
  lemma {:induction false} NoPublicationAfterFinalize(s: Store, reqs: seq<Request>, d: Uuid)
    requires d in s.drafts && s.drafts[d].finalized == Some(true)
    requires forall i :: 0 <= i < |reqs| ==> !Reopens(reqs[i], d)
    ensures Publications(s, reqs, d) == 0
    decreases |reqs|
  {
    if |reqs| > 0 {
      FinalizedIsStable(s, reqs[0], d);
      NoPublicationAfterFinalize(Step(s, reqs[0]), reqs[1..], d);
    }
  }

  /**
   * Finalize-exactly-once, as far as the code gives it: among requests none of which sets the
   * draft's `finalized` field or reuses its id, at most one publishes a video from the draft.
   */
  lemma {:induction false} AtMostOnePublication(s: Store, reqs: seq<Request>, d: Uuid)
    requires forall i :: 0 <= i < |reqs| ==> !Reopens(reqs[i], d)
    ensures Publications(s, reqs, d) <= 1
    decreases |reqs|
  {
    if |reqs| > 0 {
      if Publishes(s, reqs[0], d) {
        PublishingFinalizes(s, reqs[0], d);
        NoPublicationAfterFinalize(Step(s, reqs[0]), reqs[1..], d);
      } else {
        AtMostOnePublication(Step(s, reqs[0]), reqs[1..], d);
      }
    }
  }

  /**
   * The update schema's `finalized` field undoes that guarantee: finalize, an update setting
   * `finalized` to false, and a second finalize publish two videos from one draft.
   */
  lemma ReopenedDraftPublishesTwice(s: Store, owner: Caller, request: FinalizeRequest, v1: Uuid, v2: Uuid,
                                    t1: Timestamp, t2: Timestamp)
    requires FinalizeDraftToVideo(s, owner, request, v1, t1).result.Success?
    ensures var reopen := NoUpdate().(finalized := Set(Some(false)));
      var reqs := [FinalizeRequestOf(owner, request, v1, t1),
                   UpdateRequest(owner, request.draftId, reopen),
                   FinalizeRequestOf(owner, request, v2, t2)];
      && Publications(s, reqs, request.draftId) == 2
      && |Run(s, reqs).videos| == |s.videos| + 2
  {
    var d := request.draftId;
    var reopen := NoUpdate().(finalized := Set(Some(false)));
    var r1 := FinalizeRequestOf(owner, request, v1, t1);
    var r2 := UpdateRequest(owner, d, reopen);
    var r3 := FinalizeRequestOf(owner, request, v2, t2);
    FinalizeSucceedsIff(s, d, owner.userId, v1, t1);
    var s1 := Step(s, r1);
    var s2 := Step(s1, r2);
    assert s2.drafts[d] == s.drafts[d];
    FinalizeSucceedsIff(s2, d, owner.userId, v2, t2);
    assert Publishes(s, r1, d) && !Publishes(s1, r2, d) && Publishes(s2, r3, d);
    var s3 := Step(s2, r3);
    assert |s3.videos| == |s.videos| + 2;
    var reqs := [r1, r2, r3];
    assert reqs[1..] == [r2, r3] && reqs[1..][1..] == [r3] && reqs[1..][1..][1..] == [];
    assert Publications(s2, [r3], d) == 1;
    assert Publications(s1, [r2, r3], d) == 1;
    assert Run(s2, [r3]) == s3;
    assert Run(s1, [r2, r3]) == s3;
    assert Run(s, reqs) == s3;
  }

  /** Requests only ever add videos: the published list of the start is a prefix of the end's. */
  lemma {:induction false} VideosOnlyGrow(s: Store, reqs: seq<Request>)
    ensures |s.videos| <= |Run(s, reqs).videos| && Run(s, reqs).videos[..|s.videos|] == s.videos
    decreases |reqs|
  {
    if |reqs| > 0 {
      var t := Step(s, reqs[0]);
      assert |s.videos| <= |t.videos| && t.videos[..|s.videos|] == s.videos;
      VideosOnlyGrow(t, reqs[1..]);
    }
  }

  /** Each queued deletion comes with a published video: the queue never grows faster than the videos. */
  lemma {:induction false} DeletionsFollowPublications(s: Store, reqs: seq<Request>)
    ensures |Run(s, reqs).pendingDeletes| - |s.pendingDeletes| <= |Run(s, reqs).videos| - |s.videos|
    ensures |s.pendingDeletes| <= |Run(s, reqs).pendingDeletes|
    decreases |reqs|
  {
    if |reqs| > 0 {
      var t := Step(s, reqs[0]);
      assert |t.pendingDeletes| - |s.pendingDeletes| <= |t.videos| - |s.videos|;
      assert |s.pendingDeletes| <= |t.pendingDeletes|;
      DeletionsFollowPublications(t, reqs[1..]);
    }
  }

  /** Every draft stays filed under its own id, whatever requests arrive. */
  lemma {:induction false} RunKeepsWellKeyed(s: Store, reqs: seq<Request>)
    requires WellKeyed(s)
    ensures WellKeyed(Run(s, reqs))
    decreases |reqs|
  {
    if |reqs| > 0 {
      var t := Step(s, reqs[0]);
      assert WellKeyed(t);
      RunKeepsWellKeyed(t, reqs[1..]);
    }
  }

  /**
   * The walk-through of a draft: create with tags ["a"], update tags to ["a", "b"] and the trim
   * start, finalize. Without an edited file the finalize fails on `s3_url`; with one set in the
   * same update, the video carries the new tags and the draft keeps the trim and is finalized.
   */
  lemma TagsWalkThrough(s: Store, owner: Caller, draftId: Uuid, videoId: Uuid, now: Timestamp,
                        trim: Float, edited: Option<string>, request: FinalizeRequest)
    requires request.draftId == draftId
    ensures var input := EmptyDraftCreate().(tags := Some(["a"]));
      var u := NoUpdate().(tags := Set(Some(["a", "b"])), trimmedStart := Set(Some(trim)),
                           editedFileName := if edited.Some? then Set(edited) else Unset);
      var s1 := CreateVideoDraft(s, owner, input, draftId, now).store;
      var s2 := UpdateVideoDraft(s1, owner, draftId, u).store;
      var r := FinalizeDraftToVideo(s2, owner, request, videoId, now);
      && s2.drafts[draftId].trimmedStart == Some(trim)
      && (edited.None? ==> r.result.Failure? && r.store == s2)
      && (edited.Some? ==>
            && r.result.Success?
            && r.result.value.tags == Some(["a", "b"])
            && r.store.drafts[draftId].finalized == Some(true)
            && r.store.drafts[draftId].trimmedStart == Some(trim))
  {
    var input := EmptyDraftCreate().(tags := Some(["a"]));
    LoadDump(DraftFrom(input, draftId, owner.userId, now));
  }
}

=== FILE: models.dfy ===
/**
 * The persisted records of app/models/vedio_model.py: a published `Video` and an editable
 * `VideoDraft`, with the defaults their pydantic field declarations give them.
 */
module Models {
  import opened Wrappers
  import opened Enums
  import opened Errors

  /** A `uuid.UUID`; only compared, never inspected. */
  type Uuid(==)
  /** A `datetime`; the lifecycle only copies timestamps around. */
  type Timestamp(==)
  /** A Python `float` (trim points, duration); no arithmetic is done on them. */
  type Float(==)

  datatype Video = Video(
    videoId: Uuid,
    userId: Uuid,
    s3Url: string,
    thumbnailUrl: Option<string>,
    description: Option<string>,
    tags: Option<seq<string>>,
    location: Option<string>,
    duration: Option<Float>,
    uploadDate: Timestamp,
    views: int,
    privacy: PrivacySetting,
    isFeatured: bool,
    status: VideoStatus,
    createdAt: Timestamp,
    updatedAt: Timestamp)

  datatype VideoDraft = VideoDraft(
    draftId: Uuid,
    userId: Uuid,
    originalFileName: Option<string>,
    editedFileName: Option<string>,
    trimmedStart: Option<Float>,
    trimmedEnd: Option<Float>,
    appliedMusicId: Option<string>,
    filtersApplied: Option<seq<string>>,
    stickersApplied: Option<seq<string>>,
    location: Option<string>,
    description: Option<string>,
    tags: Option<seq<string>>,
    privacy: PrivacySetting,
    status: VideoStatus,
    finalized: bool,
    createdAt: Timestamp,
    updatedAt: Timestamp)

  /**
   * `Video(video_id=..., user_id=..., s3_url=...)` with every other field left to its default;
   * `now` stands for the clock reads of the `default_factory`s.
   */
  function DefaultVideo(videoId: Uuid, userId: Uuid, s3Url: string, now: Timestamp): Video {
    Video(videoId, userId, s3Url, None, None, Some([]), None, None, now, 0,
          FollowersOnly, false, Published, now, now)
  }

  /** `VideoDraft(draft_id=..., user_id=...)` with every other field left to its default. */
  function DefaultDraft(draftId: Uuid, userId: Uuid, now: Timestamp): VideoDraft {
    VideoDraft(draftId, userId, None, None, None, None, None, Some([]), Some([]), None, None,
               Some([]), FollowersOnly, Draft, false, now, now)
  }

  /**
   * Building a `Video` through pydantic: `s3_url` is a required `str`, so passing `None`
   * (a draft whose edited file was never set) raises a validation error and nothing is built.
   */
  function BuildVideo(base: Video, s3Url: Option<string>): (r: Result<Video, Error>)
    ensures r.Failure? <==> s3Url.None?
    ensures r.Failure? ==> r.error == ValidationError("s3_url")
    ensures r.Success? ==> r.value == base.(s3Url := s3Url.value)
  {
    match s3Url
    case None => Failure(ValidationError("s3_url"))
    case Some(url) => Success(base.(s3Url := url))
  }
}

=== FILE: s3_keys.dfy ===
/**
 * The string handling of app/services/s3.py: the object key built for an upload, the public
 * URL returned for it, and the key recovered from a URL when a file is deleted. The boto3
 * calls themselves (put, delete, presign) are outside the model; presigning is a parameter.
 */
module S3Keys {
  import opened Wrappers
  import opened Errors
  import opened Schemas

  /** The default lifetime, in seconds, of a presigned upload URL. */
  const DefaultExpiresIn: int := 3600

  /** `filename.split(".")[-1]`: the text after the last dot, or the whole name when there is none. */
  function Extension(filename: string): (ext: string)
    ensures |ext| <= |filename| && ext == filename[|filename| - |ext|..]
    ensures '.' !in ext
    ensures |ext| < |filename| ==> filename[|filename| - |ext| - 1] == '.'
    decreases |filename|
  {
    if |filename| == 0 then ""
    else
      var last := filename[|filename| - 1];
      var init := filename[..|filename| - 1];
      if last == '.' then ""
      else
        var e := Extension(init);
        assert init[|init| - |e|..] + [last] == filename[|filename| - |e| - 1..];
        assert |e| < |init| ==> init[|init| - |e| - 1] == filename[|filename| - |e| - 2];
        e + [last]
  }

  /** A name with no dot is its own extension; a name ending in a dot has an empty one. */
  lemma ExtensionEdgeCases(filename: string)
    ensures '.' !in filename ==> Extension(filename) == filename
    ensures |filename| > 0 && filename[|filename| - 1] == '.' ==> Extension(filename) == ""
  {
  }

  /** The extension is a piece of the file name, so it has no character the name lacks. */
  lemma ExtensionWithin(filename: string, c: char)
    requires c !in filename
    ensures c !in Extension(filename)
  {
  }

  /** `"/".join(parts)` */
  function Join(parts: seq<string>): string
    decreases |parts|
  {
    if |parts| == 0 then "" else if |parts| == 1 then parts[0] else parts[0] + "/" + Join(parts[1..])
  }

  /** `s.split("/")`: the pieces between slashes, empty ones included; joining them gives `s` back. */
  function Split(s: string): (parts: seq<string>)
    ensures |parts| >= 1
    ensures forall i :: 0 <= i < |parts| ==> '/' !in parts[i]
    ensures Join(parts) == s
    decreases |s|
  {
    if |s| == 0 then [""]
    else
      var rest := Split(s[1..]);
      if s[0] == '/' then
        assert Join([""] + rest) == "/" + Join(rest) by {
          assert ([""] + rest)[1..] == rest;
        }
        [""] + rest
      else
        var parts := [[s[0]] + rest[0]] + rest[1..];
        assert Join(parts) == [s[0]] + Join(rest) by {
          if |rest| > 1 {
            assert parts[1..] == rest[1..];
          }
        }
        parts
  }

  /** Joining two non-empty lists of pieces puts one slash between them. */
  lemma {:induction false} JoinAppend(a: seq<string>, b: seq<string>)
    requires |a| > 0 && |b| > 0
    ensures Join(a + b) == Join(a) + "/" + Join(b)
    decreases |a|
  {
    if |a| == 1 {
      assert (a + b)[1..] == b;
    } else {
      assert (a + b)[1..] == a[1..] + b;
      JoinAppend(a[1..], b);
    }
  }

  /**
   * The pieces `pathlib` keeps: empty pieces (repeated slashes) and `.` pieces are dropped,
   * every other piece is kept, in order (`KeptAppend` with the one-piece case below).
   */
  function Kept(parts: seq<string>): (r: seq<string>)
    ensures |r| <= |parts|
    ensures forall i :: 0 <= i < |r| ==> r[i] != "" && r[i] != "."
    ensures (forall i :: 0 <= i < |parts| ==> parts[i] != "" && parts[i] != ".") ==> r == parts
    ensures |parts| == 1 ==> r == (if parts[0] == "" || parts[0] == "." then [] else parts)
    decreases |parts|
  {
    if |parts| == 0 then []
    else if parts[0] == "" || parts[0] == "." then Kept(parts[1..])
    else [parts[0]] + Kept(parts[1..])
  }

  /** Filtering a list of pieces is filtering each part of it. */
  lemma {:induction false} KeptAppend(a: seq<string>, b: seq<string>)
    ensures Kept(a + b) == Kept(a) + Kept(b)
    decreases |a|
  {
    if |a| == 0 {
      assert a + b == b;
    } else {
      assert (a + b)[0] == a[0];
      assert (a + b)[1..] == a[1..] + b;
      KeptAppend(a[1..], b);
    }
  }

  /** The anchor of a `PurePosixPath`: exactly two leading slashes are kept, one or three and more give one. */
  function Root(p: string): (r: string)
    ensures |r| <= |p| && r == p[..|r|]
    ensures forall i :: 0 <= i < |r| ==> r[i] == '/'
    ensures r == "" <==> |p| == 0 || p[0] != '/'
    ensures r == "//" <==> |p| >= 2 && p[..2] == "//" && (|p| == 2 || p[2] != '/')
    ensures |r| <= 2 && (r != "" && r != "//" ==> r == "/")
  {
    if |p| >= 2 && p[0] == '/' && p[1] == '/' && (|p| == 2 || p[2] != '/') then "//"
    else if |p| >= 1 && p[0] == '/' then "/"
    else ""
  }

  /** `str()` of a path with this anchor and these pieces; the empty relative path prints as `.`. */
  function PathText(root: string, parts: seq<string>): string {
    if root == "" && parts == [] then "." else root + Join(parts)
  }

  /**
   * `str(Path(folder) / name)`: an absolute `name` replaces the folder (`JoinPathAbsolute`); a
   * relative one with anything left after normalising is appended to the normalised folder.
   */
  function JoinPath(folder: string, name: string): (r: string)
    ensures Root(name) == "" && Kept(Split(name)) != [] ==> r == FolderPrefix(folder) + Join(Kept(Split(name)))
  {
    if Root(name) != "" then PathText(Root(name), Kept(Split(name)))
    else
      var folderParts := Kept(Split(folder));
      var nameParts := Kept(Split(name));
      assert folderParts != [] && nameParts != [] ==>
        Join(folderParts + nameParts) == Join(folderParts) + "/" + Join(nameParts) by {
        if folderParts != [] && nameParts != [] {
          JoinAppend(folderParts, nameParts);
        }
      }
      assert folderParts == [] ==> folderParts + nameParts == nameParts;
      PathText(Root(folder), folderParts + nameParts)
  }

  /** An absolute name ignores the folder it is joined to. */
  lemma JoinPathAbsolute(folder: string, other: string, name: string)
    requires |name| > 0 && name[0] == '/'
    ensures JoinPath(folder, name) == JoinPath(other, name)
    ensures JoinPath(folder, name) == PathText(Root(name), Kept(Split(name)))
  {
  }

  /** A path `pathlib` leaves as written: relative, non-empty, no empty or `.` piece. */
  ghost predicate Clean(p: string) {
    forall i :: 0 <= i < |Split(p)| ==> Split(p)[i] != "" && Split(p)[i] != "."
  }

  /** What the folder contributes in front of a single-piece name. */
  function FolderPrefix(folder: string): string {
    var parts := Kept(Split(folder));
    Root(folder) + (if parts == [] then "" else Join(parts) + "/")
  }

  /**
   * What follows the uuid text in a generated key: the dot and the extension, normalised by
   * `pathlib` when the extension has slashes in it (a client file name like `clip.v2/final`).
   */
  function KeyTail(ext: string): string {
    var parts := Split("." + ext);
    var rest := Kept(parts[1..]);
    parts[0] + (if rest == [] then "" else "/" + Join(rest))
  }

  /**
   * `_generate_key`: `<folder>/<uuid>.<extension>`, as `pathlib` prints it. The uuid text
   * always starts the name's first piece, so the key is the normalised folder, the uuid text,
   * and a tail that depends on the file name alone.
   */
  function GenerateKey(folder: string, filename: string, uuidText: string): (key: string)
    ensures uuidText != "" && '/' !in uuidText ==>
      key == FolderPrefix(folder) + uuidText + KeyTail(Extension(filename))
  {
    var ext := Extension(filename);
    assert uuidText != "" && '/' !in uuidText ==>
      JoinPath(folder, uuidText + "." + ext) == FolderPrefix(folder) + uuidText + KeyTail(ext) by {
      if uuidText != "" && '/' !in uuidText {
        JoinPathUuidName(folder, uuidText, ext);
      }
    }
    JoinPath(folder, uuidText + "." + ext)
  }

  /** A slash-free prefix lands in the first piece. */
  lemma {:induction false} SplitPrefix(u: string, t: string)
    requires '/' !in u
    ensures Split(u + t) == [u + Split(t)[0]] + Split(t)[1..]
    decreases |u|
  {
    if |u| == 0 {
      assert u + t == t;
      assert u + Split(t)[0] == Split(t)[0];
      assert [Split(t)[0]] + Split(t)[1..] == Split(t);
    } else {
      var s := u + t;
      assert s[0] == u[0];
      assert s[1..] == u[1..] + t;
      SplitPrefix(u[1..], t);
      assert [u[0]] + (u[1..] + Split(t)[0]) == u + Split(t)[0];
    }
  }

  /** Joining a first piece to further pieces. */
  lemma JoinHead(head: string, rest: seq<string>)
    ensures Join([head] + rest) == head + (if rest == [] then "" else "/" + Join(rest))
  {
    if rest != [] {
      assert ([head] + rest)[1..] == rest;
      ConcatAssoc(head, "/", Join(rest));
    }
  }

  /** The name `<uuid>.<ext>` joined to a folder is the normalised folder, the uuid, and the tail. */
  lemma JoinPathUuidName(folder: string, uuidText: string, ext: string)
    requires uuidText != "" && '/' !in uuidText
    ensures JoinPath(folder, uuidText + "." + ext) == FolderPrefix(folder) + uuidText + KeyTail(ext)
  {
    var t := "." + ext;
    var name := uuidText + t;
    assert uuidText + "." + ext == name by { ConcatAssoc(uuidText, ".", ext); }
    var parts := Split(t);
    assert t[0] == '.' && parts[0] == [t[0]] + Split(t[1..])[0];
    SplitPrefix(uuidText, t);
    var head := uuidText + parts[0];
    assert |head| >= 2;
    assert Split(name) == [head] + parts[1..];
    assert Kept(Split(name)) == [head] + Kept(parts[1..]) by {
      assert (Split(name))[0] == head && Split(name)[1..] == parts[1..];
    }
    assert Root(name) == "" by { assert name[0] == uuidText[0]; }
    var rest := Kept(parts[1..]);
    var tail := if rest == [] then "" else "/" + Join(rest);
    JoinHead(head, rest);
    calc {
      JoinPath(folder, name);
      FolderPrefix(folder) + Join([head] + rest);
      FolderPrefix(folder) + (uuidText + parts[0] + tail);
      { ConcatAssoc(uuidText, parts[0], tail); ConcatAssoc(FolderPrefix(folder), uuidText, parts[0] + tail); }
      FolderPrefix(folder) + uuidText + (parts[0] + tail);
    }
  }

  /** A string with no slash splits into itself. */
  lemma {:induction false} SplitNoSlash(s: string)
    requires '/' !in s
    ensures Split(s) == [s]
    decreases |s|
  {
    if |s| > 0 {
      SplitNoSlash(s[1..]);
      assert [s[0]] + s[1..] == s;
    }
  }

  /** A slash-free head is the first piece, and the rest splits on its own. */
  lemma {:induction false} SplitCons(head: string, rest: string)
    requires '/' !in head
    ensures Split(head + "/" + rest) == [head] + Split(rest)
    decreases |head|
  {
    var s := head + "/" + rest;
    if |head| == 0 {
      assert s[1..] == rest;
    } else {
      assert s[1..] == head[1..] + "/" + rest;
      SplitCons(head[1..], rest);
      assert [s[0]] + head[1..] == head;
    }
  }

  /** A folder `a/b` of two proper names is clean. */
  lemma CleanTwoPieces(a: string, b: string)
    requires '/' !in a && '/' !in b
    requires a != "" && a != "." && b != "" && b != "."
    ensures Clean(a + "/" + b)
  {
    SplitCons(a, b);
    SplitNoSlash(b);
  }

  /** A leading slash makes the first piece empty. */
  lemma SplitLeadingSlash(s: string)
    ensures |s| > 0 && s[0] == '/' ==> Split(s)[0] == ""
  {
  }

  /** A name that is one clean piece is appended to whatever the folder normalises to. */
  lemma JoinPathSinglePiece(folder: string, name: string)
    requires '/' !in name && name != "" && name != "."
    ensures JoinPath(folder, name) == FolderPrefix(folder) + name
  {
    SplitNoSlash(name);
    assert Kept(Split(name)) == [name];
    assert Root(name) == "";
    var parts := Kept(Split(folder));
    if parts != [] {
      JoinAppend(parts, [name]);
    }
  }

  /** A clean folder normalises to itself. */
  lemma CleanFolderPrefix(folder: string)
    requires Clean(folder)
    ensures FolderPrefix(folder) == folder + "/"
  {
    SplitLeadingSlash(folder);
    assert Root(folder) == "";
    assert Kept(Split(folder)) == Split(folder);
  }

  /**
   * For a clean folder and a uuid text with no slash, the generated key is literally
   * `folder + "/" + uuid + "." + extension`.
   */
  lemma GenerateKeyShape(folder: string, filename: string, uuidText: string)
    requires Clean(folder)
    requires uuidText != "" && '/' !in uuidText && '/' !in filename
    ensures GenerateKey(folder, filename, uuidText) == folder + "/" + uuidText + "." + Extension(filename)
  {
    var ext := Extension(filename);
    ExtensionWithin(filename, '/');
    assert '/' !in "." + ext;
    SplitNoSlash("." + ext);
    assert KeyTail(ext) == "." + ext;
    CleanFolderPrefix(folder);
    ConcatAssoc(folder + "/" + uuidText, ".", ext);
  }

  lemma ConcatAssoc(a: string, b: string, c: string)
    ensures a + (b + c) == a + b + c
  {
  }

  /** Equal strings with a common prefix, or a common suffix, are equal without it. */
  lemma Cancel(pre: string, a: string, b: string, post: string)
    requires pre + a + post == pre + b + post
    ensures a == b
  {
    assert |a| == |b|;
    assert a == (pre + a + post)[|pre|..|pre| + |a|];
    assert b == (pre + b + post)[|pre|..|pre| + |b|];
  }

  /** Keys for distinct uuid texts differ, whatever the folder and the file name. */
  lemma GenerateKeyInjective(folder: string, filename: string, u1: string, u2: string)
    requires u1 != "" && u2 != "" && '/' !in u1 && '/' !in u2
    requires GenerateKey(folder, filename, u1) == GenerateKey(folder, filename, u2)
    ensures u1 == u2
  {
    var pre := FolderPrefix(folder);
    var tail := KeyTail(Extension(filename));
    Cancel(pre, u1, u2, tail);
  }

  /** `upload_file`'s return value: the public URL of the stored key. */
  function ObjectUrl(baseUrl: string, key: string): string {
    baseUrl + "/" + key
  }

  /** `sep` starts at position `i` of `s`. */
  ghost predicate OccursAt(s: string, sep: string, i: int) {
    0 <= i && i + |sep| <= |s| && s[i..i + |sep|] == sep
  }

  ghost predicate Occurs(s: string, sep: string) {
    exists i :: OccursAt(s, sep, i)
  }

  /** No occurrence starts in `s[start..]` once none starts before `i` and none fits from `i` on. */
  lemma NoOccurrenceInTail(s: string, sep: string, start: int, i: int)
    requires 0 <= start <= i <= |s| && i + |sep| > |s|
    requires forall j :: start <= j < i ==> !OccursAt(s, sep, j)
    ensures !Occurs(s[start..], sep)
  {
    if Occurs(s[start..], sep) {
      var j :| OccursAt(s[start..], sep, j);
      assert s[start..][j..j + |sep|] == s[start + j..start + j + |sep|];
      assert OccursAt(s, sep, start + j);
    }
  }

  /**
   * The scan behind `s.split(sep)[-1]`: the current piece starts at `start`, the search for the
   * next separator is at `i`; a match ends the piece and the scan resumes after it.
   */
  function LastPieceFrom(s: string, sep: string, start: nat, i: nat): (r: string)
    requires |sep| > 0 && start <= i <= |s|
    requires forall j :: start <= j < i ==> !OccursAt(s, sep, j)
    ensures |r| <= |s| - start && r == s[|s| - |r|..]
    ensures !Occurs(r, sep)
    ensures |s| - |r| == start || (|s| - |r| - |sep| >= start && OccursAt(s, sep, |s| - |r| - |sep|))
    decreases |s| - i
  {
    if i + |sep| > |s| then
      NoOccurrenceInTail(s, sep, start, i);
      s[start..]
    else if s[i..i + |sep|] == sep then
      assert OccursAt(s, sep, i);
      LastPieceFrom(s, sep, i + |sep|, i + |sep|)
    else
      assert !OccursAt(s, sep, i);
      LastPieceFrom(s, sep, start, i + 1)
  }

  /**
   * `s.split(sep)[-1]`: the text after the last separator found scanning left to right
   * without overlap, or all of `s` when the separator does not occur.
   */
  function SplitLast(s: string, sep: string): (r: string)
    requires |sep| > 0
    ensures |r| <= |s| && r == s[|s| - |r|..]
    ensures !Occurs(r, sep)
    ensures |r| < |s| ==> |s| - |r| >= |sep| && OccursAt(s, sep, |s| - |r| - |sep|)
    ensures !Occurs(s, sep) ==> r == s
  {
    var r := LastPieceFrom(s, sep, 0, 0);
    assert |r| < |s| ==> OccursAt(s, sep, |s| - |r| - |sep|);
    r
  }

  /**
   * `delete_file`: the key is what follows the last `base_url + "/"` in the given URL (the last
   * one a left-to-right scan finds), or the whole URL when the prefix does not occur.
   */
  function DeleteKey(baseUrl: string, fileUrl: string): (key: string)
    ensures |key| <= |fileUrl| && key == fileUrl[|fileUrl| - |key|..]
    ensures !Occurs(key, baseUrl + "/")
    ensures |key| < |fileUrl| ==> OccursAt(fileUrl, baseUrl + "/", |fileUrl| - |key| - |baseUrl + "/"|)
    ensures !Occurs(fileUrl, baseUrl + "/") ==> key == fileUrl
  {
    SplitLast(fileUrl, baseUrl + "/")
  }

  /** Behind a leading separator, a string free of the separator adds no occurrence of it. */
  lemma ShiftedOccurrences(key: string, sep: string)
    requires !Occurs(key, sep)
    ensures forall p :: |sep| <= p ==> !OccursAt(sep + key, sep, p)
  {
    forall p | |sep| <= p
      ensures !OccursAt(sep + key, sep, p)
    {
      if OccursAt(sep + key, sep, p) {
        assert (sep + key)[p..p + |sep|] == key[p - |sep|..p];
        assert OccursAt(key, sep, p - |sep|);
      }
    }
  }

  /** `delete_file` recovers the key `upload_file` stored, as long as the key does not itself contain the URL prefix. */
  lemma DeleteKeyOfObjectUrl(baseUrl: string, key: string)
    requires !Occurs(key, baseUrl + "/")
    ensures DeleteKey(baseUrl, ObjectUrl(baseUrl, key)) == key
  {
    var sep := baseUrl + "/";
    var s := sep + key;
    assert s[0..|sep|] == sep;
    ShiftedOccurrences(key, sep);
    var r := LastPieceFrom(s, sep, |sep|, |sep|);
    assert LastPieceFrom(s, sep, 0, 0) == r;
    assert |s| - |r| == |sep|;
    assert r == s[|sep|..] == key;
  }

  /**
   * `upload_file`: store the file under a fresh key in `folder` and return its URL; a failed
   * put surfaces as an error. The returned URL gives the key back to `delete_file`.
   */
  function UploadFile(baseUrl: string, filename: string, uuidText: string, stored: bool, folder: string := "uploads")
    : (r: Result<string, Error>)
    ensures r.Failure? <==> !stored
    ensures r.Success? ==> exists key :: r.value == ObjectUrl(baseUrl, key) && key == GenerateKey(folder, filename, uuidText)
    ensures r.Success? && !Occurs(GenerateKey(folder, filename, uuidText), baseUrl + "/") ==>
      DeleteKey(baseUrl, r.value) == GenerateKey(folder, filename, uuidText)
  {
    var key := GenerateKey(folder, filename, uuidText);
    if !stored then Failure(StorageError)
    else
      assert !Occurs(key, baseUrl + "/") ==> DeleteKey(baseUrl, ObjectUrl(baseUrl, key)) == key by {
        if !Occurs(key, baseUrl + "/") {
          DeleteKeyOfObjectUrl(baseUrl, key);
        }
      }
      Success(ObjectUrl(baseUrl, key))
  }

  /**
   * `generate_presigned_upload_url`: presign a PUT for a freshly generated key and return the
   * URL together with that very key; `presign` stands for the boto3 call (none: `ClientError`).
   */
  function GeneratePresignedUploadUrl(folder: string, filename: string, contentType: string, uuidText: string,
                                      presign: (string, string, int) -> Option<string>,
                                      expiresIn: int := DefaultExpiresIn)
    : (r: Result<UploadUrlResponse, Error>)
    ensures r.Success? <==> presign(GenerateKey(folder, filename, uuidText), contentType, expiresIn).Some?
    ensures r.Success? ==>
      && r.value.key == GenerateKey(folder, filename, uuidText)
      && presign(r.value.key, contentType, expiresIn) == Some(r.value.url)
    ensures r.Failure? ==> r.error == StorageError
  {
    var key := GenerateKey(folder, filename, uuidText);
    match presign(key, contentType, expiresIn)
    case None => Failure(StorageError)
    case Some(url) => Success(UploadUrlResponse(url, key))
  }

  /**
   * A presigned upload names the same key `upload_file` would store the file under with the
   * same fresh uuid, so the object's URL leads `delete_file` back to that key.
   */
  lemma PresignedKeyIsUploadKey(baseUrl: string, folder: string, filename: string, contentType: string,
                                uuidText: string, presign: (string, string, int) -> Option<string>)
    requires GeneratePresignedUploadUrl(folder, filename, contentType, uuidText, presign).Success?
    ensures var key := GeneratePresignedUploadUrl(folder, filename, contentType, uuidText, presign).value.key;
      && UploadFile(baseUrl, filename, uuidText, true, folder) == Success(ObjectUrl(baseUrl, key))
      && (!Occurs(key, baseUrl + "/") ==> DeleteKey(baseUrl, ObjectUrl(baseUrl, key)) == key)
  {
    var key := GeneratePresignedUploadUrl(folder, filename, contentType, uuidText, presign).value.key;
    if !Occurs(key, baseUrl + "/") {
      DeleteKeyOfObjectUrl(baseUrl, key);
    }
  }
}

=== FILE: schemas.dfy ===
/** The request and response shapes of app/schemas/video_schema.py used by the draft lifecycle. */
module Schemas {
  import opened Wrappers
  import opened Enums
  import opened Models

  /** `VideoDraftCreateSchema`: every field optional on the wire. */
  datatype DraftCreate = DraftCreate(
    originalFileName: Option<string>,
    editedFileName: Option<string>,
    trimmedStart: Option<Float>,
    trimmedEnd: Option<Float>,
    appliedMusicId: Option<string>,
    filtersApplied: Option<seq<string>>,
    stickersApplied: Option<seq<string>>,
    location: Option<string>,
    description: Option<string>,
    tags: Option<seq<string>>,
    privacy: PrivacySetting)

  /** The `VideoDraftCreateSchema` a request body `{}` validates to. */
  function EmptyDraftCreate(): DraftCreate {
    DraftCreate(None, None, None, None, None, Some([]), Some([]), None, None, Some([]), FollowersOnly)
  }

  /**
   * `VideoDraftUpdateSchema` after `model_dump(exclude_unset=True)`: each field is either left
   * out or set to a value that may be null. There is no `original_file_name`, and there IS
   * a `finalized`.
   */
  datatype DraftUpdate = DraftUpdate(
    editedFileName: Field<Option<string>>,
    trimmedStart: Field<Option<Float>>,
    trimmedEnd: Field<Option<Float>>,
    appliedMusicId: Field<Option<string>>,
    filtersApplied: Field<Option<seq<string>>>,
    stickersApplied: Field<Option<seq<string>>>,
    location: Field<Option<string>>,
    description: Field<Option<string>>,
    tags: Field<Option<seq<string>>>,
    privacy: Field<Option<PrivacySetting>>,
    finalized: Field<Option<bool>>)

  /** An update body that sets nothing. */
  function NoUpdate(): DraftUpdate {
    DraftUpdate(Unset, Unset, Unset, Unset, Unset, Unset, Unset, Unset, Unset, Unset, Unset)
  }

  /** `VideoDraftResponseSchema`: the create fields plus id, status and creation time; no `finalized`. */
  datatype DraftResponse = DraftResponse(
    fields: DraftCreate,
    draftId: Uuid,
    status: VideoStatus,
    createdAt: Timestamp)

  /** `VideoResponseSchema`: the `VideoCreateSchema` fields plus id, upload date, views and status. */
  datatype VideoResponse = VideoResponse(
    s3Url: string,
    thumbnailUrl: Option<string>,
    description: Option<string>,
    tags: Option<seq<string>>,
    location: Option<string>,
    duration: Option<Float>,
    privacy: PrivacySetting,
    isFeatured: bool,
    videoId: Uuid,
    uploadDate: Timestamp,
    views: int,
    status: VideoStatus)

  /** `UploadURLResponse`. */
  datatype UploadUrlResponse = UploadUrlResponse(url: string, key: string)

  /** `VideoUploadRequestSchema`. */
  datatype UploadRequest = UploadRequest(fileName: string, contentType: string)

  /** `FinalizeVideoRequestSchema`; only `draftId` is ever read. */
  datatype FinalizeRequest = FinalizeRequest(
    draftId: Uuid,
    title: string,
    thumbnailUrl: Option<string>,
    description: Option<string>,
    tags: Option<seq<string>>,
    location: Option<string>,
    privacy: PrivacySetting,
    status: VideoStatus)

  /** The draft fields the create schema names, read back off a stored draft. */
  function CreateFieldsOf(d: VideoDraft): DraftCreate {
    DraftCreate(d.originalFileName, d.editedFileName, d.trimmedStart, d.trimmedEnd,
                d.appliedMusicId, d.filtersApplied, d.stickersApplied, d.location,
                d.description, d.tags, d.privacy)
  }

  /** The video fields the response schema exposes. */
  function ToVideoResponse(v: Video): VideoResponse {
    VideoResponse(v.s3Url, v.thumbnailUrl, v.description, v.tags, v.location, v.duration,
                  v.privacy, v.isFeatured, v.videoId, v.uploadDate, v.views, v.status)
  }

  /**
   * The create schema's defaults agree with the draft model's: a draft built from an empty
   * create body carries exactly the fields a default `VideoDraft` has.
   */
  lemma CreateDefaultsMatchDraftDefaults(draftId: Uuid, userId: Uuid, now: Timestamp)
    ensures CreateFieldsOf(DefaultDraft(draftId, userId, now)) == EmptyDraftCreate()
  {
  }
}

=== FILE: token_checks.dfy ===
/**
 * The checks `verify_token` (app/services/user/user_auth.py) makes on a payload that the JWT
 * library has already decoded and signature-checked, and the claims `generate_token` signs.
 * Decoding is a parameter: `None` stands for a `JWTError` from `jwt.decode`.
 */
module TokenChecks {
  import opened Wrappers

  /** A decoded JSON claim value. */
  datatype Claim = JStr(s: string) | JInt(n: int) | JBool(b: bool) | JNull | JOther

  type Payload = map<string, Claim>

  datatype Rejection = DecodeFailed | InvalidTokenType | MissingExpiration | TokenExpired

  /**
   * What `verify_token` does: return the payload, return `None` after a caught error (with the
   * reason), or let an uncaught exception escape (`fromtimestamp` of a non-number).
   */
  datatype Verdict = Accepted(payload: Payload) | Rejected(reason: Rejection) | Raises

  /** `payload.get(key)`: an absent key reads as null. */
  function Get(p: Payload, key: string): Claim {
    if key in p then p[key] else JNull
  }

  /** The token types `verify_token` admits. */
  predicate TypeAdmitted(c: Claim) {
    c == JStr("access") || c == JStr("refresh")
  }

  /** The instant `fromtimestamp` reads from an `exp` claim; a bool is an int in Python. */
  function ExpiryInstant(c: Claim): Option<int> {
    match c
    case JInt(n) => Some(n)
    case JBool(b) => Some(if b then 1 else 0)
    case _ => None
  }

  /**
   * `verify_token` after decoding: type, then presence of `exp`, then expiry; the first check
   * that fails decides the outcome, and a payload that passes them all comes back unchanged.
   */
  function VerifyToken(decoded: Option<Payload>, now: int): (r: Verdict)
    ensures r.Accepted? ==> decoded == Some(r.payload)
    ensures decoded.None? ==> r == Rejected(DecodeFailed)
    ensures decoded.Some? && !TypeAdmitted(Get(decoded.value, "type")) ==> r == Rejected(InvalidTokenType)
    ensures decoded.Some? && TypeAdmitted(Get(decoded.value, "type")) && Get(decoded.value, "exp") == JNull ==>
      r == Rejected(MissingExpiration)
    ensures (decoded.Some? && TypeAdmitted(Get(decoded.value, "type")) && Get(decoded.value, "exp") != JNull
             && ExpiryInstant(Get(decoded.value, "exp")).None?) ==>
      r == Raises
    ensures (decoded.Some? && TypeAdmitted(Get(decoded.value, "type"))
             && ExpiryInstant(Get(decoded.value, "exp")).Some? && now > ExpiryInstant(Get(decoded.value, "exp")).value) ==>
      r == Rejected(TokenExpired)
  {
    match decoded
    case None => Rejected(DecodeFailed)
    case Some(p) =>
      if !TypeAdmitted(Get(p, "type")) then Rejected(InvalidTokenType)
      else if Get(p, "exp") == JNull then Rejected(MissingExpiration)
      else match ExpiryInstant(Get(p, "exp"))
        case None => Raises
        case Some(exp) => if now > exp then Rejected(TokenExpired) else Accepted(p)
  }

  /** A payload is accepted exactly when its type is admitted, it has an expiry, and that expiry is not before now. */
  lemma VerifyTokenAcceptsIff(p: Payload, now: int)
    ensures VerifyToken(Some(p), now).Accepted? <==>
      && ("type" in p && TypeAdmitted(p["type"]))
      && ("exp" in p && ExpiryInstant(p["exp"]).Some? && now <= ExpiryInstant(p["exp"]).value)
  {
  }

  /** The expiry instant itself is still valid; one tick later the token has expired. */
  lemma ExpiryBoundary(p: Payload, exp: int)
    requires "type" in p && TypeAdmitted(p["type"])
    requires "exp" in p && p["exp"] == JInt(exp)
    ensures VerifyToken(Some(p), exp) == Accepted(p)
    ensures VerifyToken(Some(p), exp + 1) == Rejected(TokenExpired)
  {
  }

  /** `generate_token`'s claims: the user id as text under `sub`, and the email. */
  function TokenClaims(userIdText: string, email: string): (p: Payload)
    ensures p.Keys == {"sub", "email"}
    ensures p["sub"] == JStr(userIdText) && p["email"] == JStr(email)
  {
    map["sub" := JStr(userIdText), "email" := JStr(email)]
  }

  /**
   * The claims `generate_token` builds carry no `type`, so `verify_token` would refuse them
   * as they are; the type and expiry have to be added by the token creators it calls.
   */
  lemma BareClaimsRejected(userIdText: string, email: string, now: int)
    ensures VerifyToken(Some(TokenClaims(userIdText, email)), now) == Rejected(InvalidTokenType)
  {
  }
}

=== FILE: wrappers.dfy ===
/** Failure-carrying datatypes shared by every module of the model. */
module Wrappers {

  /** Python's `X | None`. */
  datatype Option<+T> = None | Some(value: T)

  /** A call that either returns a value or raises an exception. */
  datatype Result<+R, +E> = Success(value: R) | Failure(error: E)

  /** A field of a sparse update: left out by the client, or set (possibly to null). */
  datatype Field<+T> = Unset | Set(value: T) {
    /** The value after a `$set` that carries this field, given the value before. */
    function Over(before: T): T {
      match this
      case Set(v) => v
      case Unset => before
    }
  }
}
